=== FILE: README.md ===
# Leilao-client helpers, modelled in Dafny

Leilao-client is the Next.js front end of an auction service. Most of it is
layout and network plumbing. This project models the logic hidden inside its
components and pages:

- the deduplicating merge of pushed and fetched notifications, and the push feed;
- the remaining-time arithmetic of the countdown hook, the auction card and the
  auction lists;
- validation and submit gating on the create-auction page;
- the toast list;
- the navigation bar's link selection and logout;
- the request boundary of `apiFetch`;
- login token handling;
- the profile page's session and local edit;
- the access gate of the bids page.

Each source file is one module. Two shared modules support them:

- `JsCore` holds the JavaScript semantics the pages rely on:
  - `Math.floor` and truncating `%` on numbers;
  - `Number#toString` on integers;
  - `String#trim`, and `split` on one character;
  - `includes`, and `Array#filter`.
- `Browser` holds:
  - `??` and `||` on values that may be undefined;
  - template-literal printing of undefined;
  - `localStorage` as a `map<string, string>`;
  - a `Window` class whose `trace` records every request issued (method and path), every
    `router.push`, every `window.location` assignment and every `alert`.

Pure expressions are functions with lemmas. State the source updates step by
step (React state, storage, socket listeners) lives in classes whose methods
state the whole new state. Awaited calls are method parameters of type
`Outcome` (resolved value, or thrown message). `JSON.parse`, `JSON.stringify`,
`atob`, `Number(…)` and `Date` parsing are function parameters. The current
instant is an integer parameter in milliseconds.

The time arithmetic is stated twice:

- over exact reals, with JavaScript's sign-keeping `%` (`Countdown.JsHours` and its siblings);
- as integer division and truncating remainder.

The two are proved equal for every integer input.

On a key collision the notifications page shows the pushed copy, read flag
included, and not the fetched one: pushed notifications come first, and the
filter keeps the first occurrence of each key (`NotificationMerge.PushCopyWins`).

The model keeps these behaviours as written:

- The list pages do not clamp the remaining time, so an auction that ended one
  millisecond ago reads "-1m" there and "0m" on a card
  (`AuctionsPage.EndedAuctionLabels`).
- A starting price that is not a number passes validation, because every
  comparison with NaN is false (`CreateAuction.NonNumericPricePasses`).
- The countdown's `timeLeft` keeps its old value after the target changes,
  until the next tick (`Countdown.CountdownHook.ChangeTarget`).
- A token without "." hands the text "undefined" to `atob`
  (`Login.DecodeToken`).

## Model

| member | source | states |
|---|---|---|
| NotificationMerge.FindIndex | app/notifications/page.tsx:35 | the result is the first index whose key `id ?? _id` equals the given key, or -1 when no entry carries it |
| NotificationMerge.FilterFromIsScan | app/notifications/page.tsx:33-36 | the index-based `filter`/`findIndex` pass from position i equals a left-to-right scan that skips keys already seen before i |
| NotificationMerge.MergeIsScan | app/notifications/page.tsx:33-36 | the merged list equals the scan over push ++ stored that keeps each key's first entry |
| NotificationMerge.ScanKeys | app/notifications/page.tsx:33-36 | the scan's keys are exactly the input's keys minus those already seen, and no two of its entries share a key |
| NotificationMerge.ScanIsSubsequence | app/notifications/page.tsx:33-36 | the scan's output is a subsequence of its input |
| NotificationMerge.ScanKeepsFirst | app/notifications/page.tsx:33-36 | every entry the scan keeps is the first entry of the input with its key |
| NotificationMerge.ScanOfUnique | app/notifications/page.tsx:33-36 | on input whose keys are pairwise distinct and unseen, the scan returns it unchanged |
| NotificationMerge.MergeUniqueKeys | app/notifications/page.tsx:33-36 | no two entries of the merged list share the key `id ?? _id` |
| NotificationMerge.MergeIsSubsequence | app/notifications/page.tsx:33-36 | the merged list is a subsequence of the pushed list followed by the fetched list |
| NotificationMerge.MergeCoversKeys | app/notifications/page.tsx:33-36 | the keys of the merged list are exactly the keys present in either source |
| NotificationMerge.MergeKeepsFirst | app/notifications/page.tsx:33-36 | each merged entry is the first entry of push ++ stored that carries its key |
| NotificationMerge.PushCopyWins | app/notifications/page.tsx:33 | when a pushed and a fetched entry share a key, the merged list holds that key once, and the entry holding it is the pushed copy (with its `read` flag) |
| NotificationMerge.KeylessCollapse | app/notifications/page.tsx:35 | entries lacking both `id` and `_id` share the undefined key: exactly one survives, and it is the first of them |
| NotificationMerge.DedupIdempotent | app/notifications/page.tsx:33-36 | applying the filter to its own output changes nothing |
| NotificationMerge.StoredOrEmpty | app/notifications/page.tsx:25 | a null or undefined fetch result becomes the empty list; any array is kept as it is |
| NotificationMerge.DisplayText | app/notifications/page.tsx:64 | the text shown is `message`, else `text`, else "Notificação recebida" |
| NotificationFeed.Without | src/lib/hooks/useNotifications.ts:23 | removing a listener drops every occurrence of it and keeps every other listener with its multiplicity |
| NotificationFeed.WithoutKeepsOrder | src/lib/hooks/useNotifications.ts:23 | the listeners left after a removal keep their registration order |
| NotificationFeed.Socket.Join | src/lib/hooks/useNotifications.ts:14 | joining appends exactly the given room; listeners are untouched |
| NotificationFeed.Socket.On | src/lib/hooks/useNotifications.ts:20 | registration appends one listener whose identity was never registered before |
| NotificationFeed.Socket.Off | src/lib/hooks/useNotifications.ts:23 | the listener list becomes the old one without that listener; joins are untouched |
| NotificationFeed.Feed.constructor | src/lib/hooks/useNotifications.ts:7-8 | a mounted hook starts with no notifications and no listener |
| NotificationFeed.Feed.Subscribe | src/lib/hooks/useNotifications.ts:10-20 | with no socket or a falsy userId nothing is joined or registered; otherwise the room is exactly userId and one fresh listener is added |
| NotificationFeed.Feed.Receive | src/lib/hooks/useNotifications.ts:16-18 | with a listener registered, an event prepends exactly that notification in front of the unchanged earlier list; without one nothing changes |
| NotificationFeed.Feed.Cleanup | src/lib/hooks/useNotifications.ts:22-24 | cleanup removes this hook's listener and leaves every other listener and the joins as they were |
| NotificationFeed.ReceiveTwice | src/lib/hooks/useNotifications.ts:17 | the same notification delivered twice is listed twice: the feed does not deduplicate |
| NotificationFeed.ReceiveAfterCleanup | src/lib/hooks/useNotifications.ts:22-24 | after cleanup a delivered notification no longer reaches the list |
| Countdown.HoursAgreesWithJs | src/lib/hooks/useCountdown.ts:15 | integer hours equal `Math.floor(t / 1000 / 60 / 60)` over exact reals, for every integer t |
| Countdown.MinutesAgreesWithJs | src/lib/hooks/useCountdown.ts:16 | integer minutes equal `Math.floor((t / 1000 / 60) % 60)` with sign-keeping `%`, for every integer t |
| Countdown.SecondsAgreesWithJs | src/lib/hooks/useCountdown.ts:17 | integer seconds equal `Math.floor((t / 1000) % 60)` with sign-keeping `%`, for every integer t |
| Countdown.Reconstruct | src/lib/hooks/useCountdown.ts:15-17 | for t >= 0: hours·3600 + minutes·60 + seconds is the whole number of seconds in t, and minutes and seconds lie in [0, 60) |
| Countdown.MinutesOfWholeMinutes | src/lib/hooks/useCountdown.ts:16 | for t >= 0 the minutes are the whole minutes of t modulo 60 |
| Countdown.Decompose | src/lib/hooks/useCountdown.ts:15-19 | `expired` iff timeLeft <= 0; bounds and reconstruction for timeLeft >= 0; for negative timeLeft negative hours and minutes and seconds in [-60, 0]; a timeLeft in (0, 1000) is not expired yet reads 0/0/0 |
| Countdown.DecomposeAgreesWithJs | src/lib/hooks/useCountdown.ts:15-19 | the hook's result equals the JavaScript expressions' values and `timeLeft <= 0` |
| Countdown.CountdownHook.constructor | src/lib/hooks/useCountdown.ts:4-6 | timeLeft is computed on the first render, so a target already past is expired with no tick |
| Countdown.CountdownHook.Tick | src/lib/hooks/useCountdown.ts:9-11 | while the interval runs, a tick sets timeLeft to target − now; after clearing, a tick changes nothing |
| Countdown.CountdownHook.ChangeTarget | src/lib/hooks/useCountdown.ts:8-13 | a new target restarts the interval and leaves timeLeft at its old value |
| Countdown.CountdownHook.Unmount | src/lib/hooks/useCountdown.ts:12 | the interval is cleared; target and timeLeft are kept |
| Countdown.TickTwice | src/lib/hooks/useCountdown.ts:9-11 | over two ticks at increasing instants timeLeft strictly decreases, and a target passed by the first tick reads expired |
| Countdown.TimerLabel | src/components/auctions/CountdownTimer.tsx:5-6 | the label is "Encerrado" iff expired; otherwise it is hours, "h ", minutes, "m ", seconds, "s" |
| Countdown.TimerLabelReadsBack | src/components/auctions/CountdownTimer.tsx:5-6 | two timers with the same label agree on being expired, and running ones on hours, minutes and seconds |
| Countdown.HoursMinutesLabel | src/components/auctions/AuctionCard.tsx:22 | the label has an "h" part iff hours > 0, always ends in "m"; it is hours, "h ", minutes, "m" for hours > 0 and minutes, "m" otherwise |
| Countdown.HoursMinutesLabelReadsBack | src/components/auctions/AuctionCard.tsx:22 | two equal labels have the same minutes, agree on hours > 0, and then have the same hours |
| AuctionCard.ClampedClock | src/components/auctions/AuctionCard.tsx:6-8 | hours and minutes are never negative and minutes < 60; for t >= 0 they are t div 3600000 and (t div 60000) mod 60; for t <= 0 both are 0 |
| AuctionCard.ClampedAgreesWithJs | src/components/auctions/AuctionCard.tsx:7-8 | the clamped clock is `Math.max(0, Math.floor(…))` of the JavaScript expressions |
| AuctionCard.CardLabel | src/components/auctions/AuctionCard.tsx:22 | from one hour on the card shows whole hours and the minutes within the hour; below an hour only the whole minutes, "0m" once ended |
| AuctionCard.CardLabelReadsBack | src/components/auctions/AuctionCard.tsx:22 | two cards with the same label show the same clamped hours and minutes |
| AuctionCard.CardLabelOfEnded | src/components/auctions/AuctionCard.tsx:6-22 | an ended auction's card reads "0m", and a card label never contains a minus sign |
| AuctionCard.CardHref | src/components/auctions/AuctionCard.tsx:11 | the link is "/auctions/" followed by `id`, else `_id`, else "undefined" |
| AuctionsPage.ListClock | app/auctions/page.tsx:83-86 | the unclamped hours and minutes equal the JavaScript expressions; they agree with the card for t >= 0, and for t < 0 hours are negative and minutes lie in [-60, 0] |
| AuctionsPage.ListLabel | app/auctions/page.tsx:115 | from one hour on whole hours and the minutes within the hour; below an hour the whole minutes; once ended the JavaScript minute expression's value |
| AuctionsPage.ListLabelReadsBack | app/auctions/page.tsx:115 | two rows with the same label show the same minutes, and the same hours from one hour on |
| AuctionsPage.ListLabelAgainstCard | app/auctions/page.tsx:115 | a running auction reads the same on the list as on a card; an ended one shows only its (possibly negative) minutes |
| AuctionsPage.EndedAuctionLabels | app/auctions/page.tsx:85-86 | one millisecond after the end the list shows "-1m" and the card "0m" |
| AuctionsPage.ListKey | app/auctions/page.tsx:91 | the key is `id` when truthy, else `title` |
| AuctionsPage.ListHref | app/auctions/page.tsx:90 | the link uses `id` only, printing "undefined" when it is missing |
| AuctionsPage.Page.constructor | app/auctions/page.tsx:17-19 | the page starts loading, with no auctions and no error |
| AuctionsPage.Page.View | app/auctions/page.tsx:38-72 | loading screen iff loading; error screen iff not loading and the error is non-empty, showing that error text; the empty text "Nenhum leilão disponível." only for no auctions; otherwise the list |
| AuctionsPage.Page.FetchData | app/auctions/page.tsx:21-36 | one request to "/auctions"; the resolved list is stored, or the error is the thrown message else "Erro ao carregar leilões"; loading always ends |
| AuctionsPage.FirstLoad | app/auctions/page.tsx:21-72 | a first load that resolves with no auctions ends on the empty text, one with auctions on the list; a rejected one shows the thrown message, else "Erro ao carregar leilões" |
| MyAuctions.Owned | app/profile/my-auctions/page.tsx:36 | exactly the auctions whose `ownerId` equals the stored user id are kept, each with its multiplicity |
| MyAuctions.OwnedIsSubsequence | app/profile/my-auctions/page.tsx:36 | the kept auctions are in their original order |
| MyAuctions.OwnedAll | app/profile/my-auctions/page.tsx:36 | a list holding only the user's auctions is shown whole |
| MyAuctions.RowLabel | app/profile/my-auctions/page.tsx:86-107 | a row's time is labelled by the list page's unclamped rule, with an "h" part exactly when an hour or more remains |
| MyAuctions.MyHref | app/profile/my-auctions/page.tsx:92-93 | the link uses `_id` only, printing "undefined" when it is missing |
| MyAuctions.Page.constructor | app/profile/my-auctions/page.tsx:18-20 | the page starts loading, with no auctions and no error |
| MyAuctions.Page.View | app/profile/my-auctions/page.tsx:49-77 | loading, the error screen showing the error text, the "Você ainda não criou nenhum leilão." prompt linking to "/auctions/new", or the list, in that order of precedence |
| MyAuctions.Page.FetchMyAuctions | app/profile/my-auctions/page.tsx:24-47 | with no token or user: a push to "/auth/login" and no fetch; an unparsable user: an error and no fetch; otherwise one request, then the owner filter or the thrown message else "Erro ao carregar leilões."; loading always ends |
| CreateAuction.Validate | app/auctions/new/page.tsx:41-47 | null iff every check passes; otherwise the message of the first failing check in the order title, price, end-time presence, future end time; the last two messages are given exactly when the earlier checks pass and theirs fails |
| CreateAuction.WhitespaceTitleRejected | app/auctions/new/page.tsx:42 | a title of whitespace only is rejected with "Title is required" |
| CreateAuction.ValidFormHasTitle | app/auctions/new/page.tsx:41-47 | a form that passes has a visible title character and an end that parses to an instant strictly after now |
| CreateAuction.NonNumericPricePasses | app/auctions/new/page.tsx:43 | a non-empty price text that converts to NaN is not rejected by the price check |
| CreateAuction.MakePayload | app/auctions/new/page.tsx:74-79 | title and description are the trimmed inputs; price and end time are their conversions |
| CreateAuction.PayloadTrimmed | app/auctions/new/page.tsx:75-76 | trimming the payload's title or description again changes nothing |
| CreateAuction.RedirectTarget | app/auctions/new/page.tsx:82-88 | "/auctions/" + `id` when truthy, else + `_id` when truthy, else "/auctions" |
| CreateAuction.Page.constructor | app/auctions/new/page.tsx:18-20 | the page starts with no role, not loading and no error |
| CreateAuction.Page.LoadRole | app/auctions/new/page.tsx:22-34 | with no stored user a push to "/login"; otherwise the role is the parsed user's role, or null when parsing throws |
| CreateAuction.Page.Submit | app/auctions/new/page.tsx:50-95 | a non-SELLER gets "Only sellers can create auctions." before validation; a validation message stops the submit; no token gives "User not authenticated." and no request; otherwise the trimmed payload is sent, then the redirect or the thrown message else "Failed to create auction" |
| CreateAuction.Page.Send | app/auctions/new/page.tsx:81-93 | one create request, then the redirect chosen from the result or the thrown message; loading ends |
| CreateAuction.BuyerSubmits | app/auctions/new/page.tsx:54-57 | a buyer gets only the role error, whatever the form holds, and no request is issued |
| Toasts.Remove | src/components/ui/use-toast.tsx:26 | every entry with the id is removed and every other entry is kept with its multiplicity |
| Toasts.RemoveKeepsOrder | src/components/ui/use-toast.tsx:26 | the remaining toasts keep their order |
| Toasts.RemoveAbsent | src/components/ui/use-toast.tsx:26 | removing an id no entry carries leaves the list unchanged |
| Toasts.ToastProvider.constructor | src/components/ui/use-toast.tsx:19 | the provider starts with no toasts and no timers |
| Toasts.ToastProvider.Toast | src/components/ui/use-toast.tsx:21-28 | one entry with id `Date.now().toString()` is prepended to the unchanged list, a missing variant becomes "default", and its removal is scheduled |
| Toasts.ToastProvider.Expire | src/components/ui/use-toast.tsx:25-27 | a firing timer filters its id out of the list and is itself dropped |
| Toasts.SameInstantToasts | src/components/ui/use-toast.tsx:22-26 | two toasts made in the same millisecond share an id, so the first timer removes both |
| Toasts.PaletteOf | src/components/ui/use-toast.tsx:39-44 | "destructive" is red, "success" green, and "default" neutral |
| Toasts.UseToast | src/components/ui/use-toast.tsx:56-62 | outside a provider it throws "useToast must be used within a ToastProvider"; inside, it returns the provider's context |
| Navbar.AllLinks | src/components/layout/Navbar.tsx:45-68 | public links first; then the private links iff a token is stored; the seller links at the end for SELLER; the buyer link at the end for BUYER |
| Navbar.HrefsOfAllLinks | src/components/layout/Navbar.tsx:68 | the hrefs shown are the public, private, seller and buyer groups in that order, each present under its condition |
| Navbar.PublicLinksAlways | src/components/layout/Navbar.tsx:45-48 | "/" and "/auctions" are always shown |
| Navbar.PrivateLinksIffToken | src/components/layout/Navbar.tsx:50-53 | "/profile" and "/notifications" are shown iff a token is stored |
| Navbar.SellerLinksIffSeller | src/components/layout/Navbar.tsx:55-61 | the seller's links are shown iff the role is "SELLER", token or not |
| Navbar.BuyerLinksIffBuyer | src/components/layout/Navbar.tsx:63-66 | "/profile/my-bids" is shown iff the role is "BUYER" |
| Navbar.AdminLinks | src/components/layout/Navbar.tsx:55-66 | an ADMIN gets neither role group: only the public links and, with a token, the private ones |
| Navbar.IsActive | src/components/layout/Navbar.tsx:86 | a link is highlighted iff the pathname equals its href exactly |
| Navbar.AllHrefsDistinct | src/components/layout/Navbar.tsx:68 | for every token and role, no href appears twice among the links shown |
| Navbar.AtMostOneActive | src/components/layout/Navbar.tsx:81-86 | at most one link is highlighted, and one is exactly when the pathname is among the hrefs shown |
| Navbar.NavbarState.constructor | src/components/layout/Navbar.tsx:22-23 | the bar starts with no token and no user |
| Navbar.NavbarState.Load | src/components/layout/Navbar.tsx:26-33 | the token is copied from storage; a missing user gives null; a stored user is parsed, and a parse that throws escapes after the token was set |
| Navbar.NavbarState.HandleLogout | src/components/layout/Navbar.tsx:35-43 | both session keys are removed, both state fields cleared so only public links remain, then a push to "/login" |
| ApiClient.StripTrailingSlash | src/server/api.ts:9 | exactly one trailing "/" is removed when present; any other string is unchanged |
| ApiClient.ApiUrl | src/server/api.ts:5-11 | localhost:3001 in development; otherwise the configured URL minus one trailing "/", or the hosted fallback when that is unset or empty |
| ApiClient.SlashOnlyFallsBack | src/server/api.ts:8-11 | a configured URL of "/" falls back to the hosted server |
| ApiClient.BuildHeaders | src/server/api.ts:20-29 | the headers satisfy `HeadersFor`: Content-Type defaults to application/json; caller headers override by key; `Bearer <token>` is added iff a token is stored and no truthy Authorization was given, replacing an empty one |
| ApiClient.ReadBody | src/server/api.ts:34-37 | the body is parsed as JSON iff the content type contains "application/json", otherwise read as text; a failing JSON parse rejects |
| ApiClient.MessageText | src/server/api.ts:45-47 | `new Error(v).message`: a string as is; a non-empty array as its items joined by ",", an empty one as "" |
| ApiClient.ListMessageReadsBack | src/server/api.ts:45-47 | splitting an array's message at "," gives back its comma-free items |
| ApiClient.ObjectMessage | src/server/api.ts:47 | a non-empty string `message` as is, any array converted, a missing or empty one gives "API Error" |
| ApiClient.ErrorMessage | src/server/api.ts:46-48 | a string body verbatim; an object's `message` as `ObjectMessage` converts it; other JSON gives "API Error"; a JSON null throws the TypeError of reading `.message` |
| ApiClient.ApiFetch | src/server/api.ts:15-52 | the URL is base + endpoint; the headers are those of `HeadersFor` over the stored token; one request with the call's method is logged; a rejected `fetch` or body read rejects with storage untouched; a non-OK response rejects with the chosen message; a 401 first clears both session keys and moves to "/login"; other statuses leave storage alone |
| ApiClient.GetAuction | src/server/api.ts:97-100 | an empty id throws "Auction ID is required" with no request; otherwise a GET request goes to "/auctions/" + id |
| Login.ExtractToken | app/login/page.tsx:35 | the token is `access_token` when truthy, else `token.access_token` |
| Login.PayloadSegment | app/login/page.tsx:19 | the second "."-separated segment exists iff the token contains "."; it holds no "." and sits right after the first ".", followed by nothing or by "." |
| Login.PayloadOfCompact | app/login/page.tsx:19 | for `header.payload.signature` (section 7.1 of RFC 7515) the segment read is the payload |
| Login.DecodeToken | app/login/page.tsx:17-23 | null whenever `atob` or `JSON.parse` throws; otherwise exactly the value `JSON.parse` gave for the decoded payload |
| Login.DecodeCompact | app/login/page.tsx:17-23 | a `header.payload.signature` token decodes from its payload alone: nothing when `atob` refuses it, else the parsed value |
| Login.StoredUser | app/login/page.tsx:46-50 | the stored user is exactly `{ id: sub, email, role }` |
| Login.LoginPage.constructor | app/login/page.tsx:9-10 | the page starts with no error and not loading |
| Login.LoginPage.HandleSubmit | app/login/page.tsx:25-61 | a thrown login shows its message else "Erro ao fazer login."; no token gives "Token não retornado pelo servidor."; a failed decode gives "Falha ao decodificar o token."; on all three the page writes nothing to storage; on success the token and the user are stored and the page moves to "/auctions" |
| Profile.FetchedUser | app/profile/page.tsx:41 | the user is `data.user` when present, else `data` itself; a null response gives none |
| Profile.Edited | app/profile/page.tsx:89 | the edit sets name and email and keeps id, role and createdAt |
| Profile.EditedTwice | app/profile/page.tsx:89 | a second edit overrides the first |
| Profile.ProfilePage.constructor | app/profile/page.tsx:18-25 | the page starts loading, with no user, no error and a closed empty editor |
| Profile.ProfilePage.FetchMe | app/profile/page.tsx:29-55 | with no token: a push to "/auth/login" and `me` is not called; a failure sets the message else "Could not fetch user", clears both session keys and goes to login; loading always ends |
| Profile.ProfilePage.HandleLogout | app/profile/page.tsx:60-66 | both session keys are removed, then a push to "/auth/login" |
| Profile.ProfilePage.OpenEdit | app/profile/page.tsx:68-72 | the editor opens with the user's name and email, or empty text |
| Profile.ProfilePage.SaveEdit | app/profile/page.tsx:74-100 | no user: nothing happens; no token: the alert "Not authenticated", user and storage unchanged; otherwise only name and email change, the stored user is rewritten and the editor closes |
| Profile.SaveWithoutChanges | app/profile/page.tsx:68-91 | opening the editor and saving unchanged values keeps the user as it was |
| MyBids.StatusLabel | app/profile/my-bids/page.tsx:116-121 | "Ativo" iff the auction status is "OPEN", else "Encerrado" |
| MyBids.Page.constructor | app/profile/my-bids/page.tsx:19-21 | the page starts loading, with no bids and no error |
| MyBids.Page.View | app/profile/my-bids/page.tsx:57-82 | loading, the error screen showing the error text, "Você ainda não fez nenhum lance." for no bids, or the list |
| MyBids.BidsEndpoint | src/server/api.ts:134 | the request path is "/bids/user/" and the user id, "undefined" when the id is missing |
| MyBids.Page.FetchBids | app/profile/my-bids/page.tsx:24-52 | missing token or user: "Usuário não autenticado." and no request; an array becomes the bid list; a non-array gives "Não foi possível carregar seus lances."; anything thrown gives "Erro ao carregar seus lances." |
| MyBids.FailedLoad | app/profile/my-bids/page.tsx:46-48 | whatever the server's message, a failed load shows the same fixed text |
| Browser.Or | app/login/page.tsx:35 | `a || b` is `a` when truthy, else `b` |
| Browser.MessageOr | app/auctions/page.tsx:30 | `err.message || fallback` is the message when non-empty, else the fallback |
| Browser.GetItem | src/components/layout/Navbar.tsx:28-29 | `getItem` is null exactly when the key is absent |
| Browser.ClearSession | src/components/layout/Navbar.tsx:37-38 | `token` and `user` are removed and every other key is kept |
| JsCore.IntToStringInjective | src/components/ui/use-toast.tsx:22 | distinct instants print to distinct ids |
| JsCore.TrimEmptyIff | app/auctions/new/page.tsx:42 | a string trims to empty iff it is all whitespace |
| JsCore.TrimIdempotent | app/auctions/new/page.tsx:75-76 | trimming twice equals trimming once |
| JsCore.SplitJoin | app/login/page.tsx:19 | splitting pieces joined by a separator they do not contain gives the pieces back |
| JsCore.JoinSplit | app/login/page.tsx:19 | joining the pieces of a split with the separator gives back the text |
| JsCore.TrimIsInfix | app/auctions/new/page.tsx:42 | the trimmed text is a slice of the input with only whitespace cut on either side |
| JsCore.Contains | src/server/api.ts:35 | `includes` holds iff the text occurs at some position |
| JsCore.Filter | src/components/ui/use-toast.tsx:26 | the kept elements all pass, and every passing element keeps its multiplicity |
| JsCore.FilterIsSubsequence | src/components/ui/use-toast.tsx:26 | the kept elements are in their original order |
| JsCore.FilterAllPass | app/profile/my-auctions/page.tsx:36 | filtering a list whose every element passes gives the list back |

## Left out

- JSX rendering, styling, framer-motion, the landing page, the layout shell, Button and the Dialog portal: presentation only.
- The register page and AuctionForm: they only forward inputs and hold no rules.
- The socket transport (`useSocket`, the socket singleton): the socket is a `Socket` object handed to the hook, or null.
- The notifications page's mount effect, which reads the stored user and calls `listByUser`: I/O. Its result enters the model through `NotificationMerge.StoredOrEmpty`.
- `fetch`, `router.push`, `window.location`, `alert` and `localStorage` as real APIs: they are a trace of events and a key/value map.
- Floating point and locale: `Number(…)`, `Date` parsing, `toISOString` and `toLocaleString` are abstract parameters. Prices are abstract numbers. The time arithmetic uses integer milliseconds.
- `atob` and `JSON.parse`: abstract partial functions. Whether real base64 decoding accepts a base64url JWT segment is not modelled.
- Timers: `setInterval` and `setTimeout` are the explicit operations `Tick` and `Expire`. The 1000 ms and 4500 ms cadences are not modelled.
- Console logging: it has no effect on state.
- The `typeof window` guards: the model always runs in the browser.
- Each page's API call is an `Outcome` parameter. What `apiFetch` does on the way (headers, the 401 redirect) is modelled once, in `ApiClient.ApiFetch`.
- ApiClient.ErrorMessage: a `message` that is a number, a boolean, an object, or an array holding non-strings is not modelled; only strings and arrays of strings are.
- Login.LoginPage.HandleSubmit: the login call is an `Outcome` parameter, so what `apiFetch` does before it settles (on a 401, removing `token` and `user` and assigning "/login") is outside its contract, and likewise for the other pages' fetch methods; that path is stated once, by `ApiClient.ApiFetch`.
- NotificationMerge.Key: JSON `null` and a missing field are both `None`. A notification whose `_id` is null (and `id` missing) therefore shares its key with one lacking both, though `===` tells null from undefined; `NotificationMerge.KeylessCollapse` keeps one where the page keeps both.
- AuctionCard.CardHref: when `id` is missing or null and `_id` is null, the page prints "null" where the model prints "undefined".
- Browser.Interpolate: a template literal prints a JSON null as "null"; the model has one `None` for null and undefined and prints "undefined". The same holds for `AuctionsPage.ListHref`, `MyAuctions.MyHref` and `MyBids.BidsEndpoint`.
- MyAuctions.Owned: an auction with `ownerId: null` is kept for a stored user without `id` (both `None`), where `===` drops it.
- ApiClient.ApiFetch: a `Headers` instance passed as caller headers is not modelled; only plain objects are.
- ApiClient.GetAuction: for a non-empty id it states only the request issued; the rest is `ApiClient.ApiFetch`'s contract.
- A stored user that parses to JSON `null` or a non-object: the parser parameter yields a user record or throws.
- The "Tentar novamente" reload button and the profile page's rendering of the user.
- The API endpoints other than `auctions.get` are only requests in the trace, with their HTTP method and path. Their bodies and headers are not modelled.

=== FILE: api.dfy ===
/**
 * The API client's request boundary: the base URL, the header dictionary
 * each request carries, how the response body is read, which message a
 * failed response throws, and the session clearing on a 401.
 */
module ApiClient {
  import opened JsCore
  import opened Browser

  const DevUrl := "http://localhost:3001"
  const FallbackUrl := "https://leilao-server.onrender.com"

  /** `s.replace(/\/$/, "")`: at most one trailing slash goes. */
  function StripTrailingSlash(s: string): (r: string)
    ensures s != "" && s[|s| - 1] == '/' ==> r + "/" == s
    ensures s == "" || s[|s| - 1] != '/' ==> r == s
  {
    if s != "" && s[|s| - 1] == '/' then s[..|s| - 1] else s
  }

  /**
   * `API_URL`: the local server in development; otherwise the configured URL
   * without its trailing slash, unless that is unset or ends up empty, in
   * which case the hosted server.
   */
  function ApiUrl(isDev: bool, envUrl: Option<string>): (r: string)
    ensures r != ""
    ensures isDev ==> r == DevUrl
    ensures !isDev && Truthy(envUrl) && StripTrailingSlash(envUrl.value) != "" ==> r == StripTrailingSlash(envUrl.value)
    ensures !isDev && (!Truthy(envUrl) || StripTrailingSlash(envUrl.value) == "") ==> r == FallbackUrl
  {
    var chosen: Option<string> :=
      if isDev then Some(DevUrl)
      else if Truthy(envUrl) then Some(StripTrailingSlash(envUrl.value))
      else None;
    var r := Or(chosen, Some(FallbackUrl));
    r.value
  }

  /** A configured URL of a single "/" strips to the empty string and so falls back to the hosted server. */
  lemma SlashOnlyFallsBack()
    ensures ApiUrl(false, Some("/")) == FallbackUrl
  {
    assert StripTrailingSlash("/") == "";
  }

  type Headers = map<string, string>

  const ContentType := "Content-Type"
  const Authorization := "Authorization"
  const JsonMime := "application/json"

  /**
   * The header dictionary: "Content-Type: application/json", overridden by
   * any caller header with the same key, then `Authorization: Bearer <token>`
   * when a token is stored and the caller gave no (or an empty) Authorization.
   */
  predicate HeadersFor(headers: Headers, caller: Option<Headers>, token: Option<string>)
  {
    var given := if caller.Some? then caller.value else map[];
    && headers.Keys == given.Keys + {ContentType}
         + (if Truthy(token) && !Truthy(GetItem(given, Authorization)) then {Authorization} else {})
    && headers[ContentType] == (if ContentType in given then given[ContentType] else JsonMime)
    && (forall k :: k in given && k != Authorization ==> headers[k] == given[k])
    && (Truthy(token) && !Truthy(GetItem(given, Authorization)) ==> headers[Authorization] == "Bearer " + token.value)
    && (!Truthy(token) || Truthy(GetItem(given, Authorization)) ==> GetItem(headers, Authorization) == GetItem(given, Authorization))
  }

  /** `headers` as `apiFetch` builds them, stated by `HeadersFor`. */
  method BuildHeaders(caller: Option<Headers>, token: Option<string>) returns (headers: Headers)
    ensures HeadersFor(headers, caller, token)
  {
    var given: Headers := if caller.Some? then caller.value else map[];
    headers := map[ContentType := JsonMime] + given;
    if Truthy(token) && !Truthy(GetItem(headers, Authorization)) {
      headers := headers[Authorization := "Bearer " + token.value];
    }
  }

  /** The `message` member of an error object: a string, or an array of strings. */
  datatype MessageValue = Text(s: string) | List(items: seq<string>)

  /** A parsed JSON value, as far as the error path reads it. */
  datatype Json =
    | JString(s: string)
    | JNull
    | JObject(message: Option<MessageValue>)
    | JOther                               // numbers, booleans, arrays
  datatype Body = JsonBody(json: Json) | TextBody(text: string)

  datatype Response = Response(ok: bool, status: int, contentType: Option<string>, text: string)

  /** The body is read as JSON exactly when the content type mentions "application/json". */
  predicate IsJson(contentType: Option<string>)
  {
    contentType.Some? && Contains(contentType.value, JsonMime)
  }

  /** `await res.json()` or `await res.text()`; a JSON parse that throws rejects the call. */
  function ReadBody(response: Response, parseJson: string -> Outcome<Json>): (r: Outcome<Body>)
    ensures IsJson(response.contentType) ==>
      match parseJson(response.text)
      case Resolved(j) => r == Resolved(JsonBody(j))
      case Rejected(m) => r == Rejected(m)
    ensures !IsJson(response.contentType) ==> r == Resolved(TextBody(response.text))
  {
    if IsJson(response.contentType) then
      match parseJson(response.text)
      case Resolved(j) => Resolved(JsonBody(j))
      case Rejected(m) => Rejected(m)
    else Resolved(TextBody(response.text))
  }

  const ApiErrorFallback := "API Error"
  /** Reading `.message` of a JSON null throws a TypeError; this is its message in V8. */
  const NullMessageTypeError := "Cannot read properties of null (reading 'message')"

  /**
   * `new Error(message).message`: the `String(…)` of the value. An array is
   * truthy even when empty, and converts to its items joined by ",".
   */
  function MessageText(v: MessageValue): (m: string)
    ensures v.Text? ==> m == v.s
    ensures v.List? && v.items == [] ==> m == ""
    ensures v.List? && |v.items| == 1 ==> m == v.items[0]
    ensures v.List? && v.items != [] ==> m == Join(v.items, ',')
  {
    match v
    case Text(s) => s
    case List(items) => if items == [] then "" else Join(items, ',')
  }

  /** An array of comma-free strings can be read back from the message by splitting at ",". */
  lemma ListMessageReadsBack(items: seq<string>)
    requires items != []
    requires forall i :: 0 <= i < |items| ==> ',' !in items[i]
    ensures Split(MessageText(List(items)), ',') == items
  {
    SplitJoin(items, ',');
  }

  /** `data.message || "API Error"` for an object body: an empty string falls back, any array is kept. */
  function ObjectMessage(message: Option<MessageValue>): (m: string)
    ensures message.Some? && message.value.Text? && message.value.s != "" ==> m == message.value.s
    ensures message.Some? && message.value.List? ==> m == MessageText(message.value)
    ensures message.None? || message == Some(Text("")) ==> m == ApiErrorFallback
  {
    match message
    case Some(Text(s)) => if s != "" then s else ApiErrorFallback
    case Some(List(_)) => MessageText(message.value)
    case None => ApiErrorFallback
  }

  /** The message thrown for a non-OK response: a string body verbatim, else its `message`, else "API Error". */
  function ErrorMessage(data: Body): (m: string)
    ensures data.TextBody? ==> m == data.text
    ensures data.JsonBody? && data.json.JString? ==> m == data.json.s
    ensures data.JsonBody? && data.json.JObject? ==> m == ObjectMessage(data.json.message)
    ensures data.JsonBody? && data.json.JOther? ==> m == ApiErrorFallback
    ensures data.JsonBody? && data.json.JNull? ==> m == NullMessageTypeError
  {
    match data
    case TextBody(t) => t
    case JsonBody(JString(s)) => s
    case JsonBody(JObject(message)) => ObjectMessage(message)
    case JsonBody(JOther) => ApiErrorFallback
    case JsonBody(JNull) => NullMessageTypeError
  }

  /** The request as it leaves the client. */
  datatype Sent = Sent(url: string, headers: Headers)

  const LoginPath := "/login"

  /**
   * `apiFetch(endpoint, { method, headers })`, where `fetch` settles as
   * `response`: a network failure rejects it before any body is read. The
   * request goes to the base URL followed by the endpoint. A 401 clears the
   * session and moves to "/login" before the error is thrown; it is only
   * reached once the body has been read.
   */
  method ApiFetch(w: Window, isDev: bool, envUrl: Option<string>, verb: HttpMethod, endpoint: string,
                  caller: Option<Headers>, response: Outcome<Response>, parseJson: string -> Outcome<Json>)
    returns (result: Outcome<Body>, sent: Sent)
    modifies w
    ensures sent.url == ApiUrl(isDev, envUrl) + endpoint
    ensures HeadersFor(sent.headers, caller, GetItem(old(w.storage), TokenKey))
    ensures Truthy(GetItem(old(w.storage), TokenKey)) && Authorization !in (if caller.Some? then caller.value else map[]) ==>
      Authorization in sent.headers && sent.headers[Authorization] == "Bearer " + old(w.storage)[TokenKey]
    ensures response.Rejected? ==>
      result == Rejected(response.message) && w.storage == old(w.storage) && w.trace == old(w.trace) + [Request(verb, endpoint)]
    ensures response.Resolved? && ReadBody(response.value, parseJson).Rejected? ==>
      result == ReadBody(response.value, parseJson) && w.storage == old(w.storage)
      && w.trace == old(w.trace) + [Request(verb, endpoint)]
    ensures response.Resolved? && ReadBody(response.value, parseJson).Resolved? && response.value.ok ==>
      result == ReadBody(response.value, parseJson) && w.storage == old(w.storage)
      && w.trace == old(w.trace) + [Request(verb, endpoint)]
    ensures response.Resolved? && ReadBody(response.value, parseJson).Resolved? && !response.value.ok ==>
      result == Rejected(ErrorMessage(ReadBody(response.value, parseJson).value))
      && (response.value.status == 401 ==>
            w.storage == ClearSession(old(w.storage))
            && w.trace == old(w.trace) + [Request(verb, endpoint), LocationAssign(LoginPath)])
      && (response.value.status != 401 ==>
            w.storage == old(w.storage) && w.trace == old(w.trace) + [Request(verb, endpoint)])
  {
    var url := ApiUrl(isDev, envUrl) + endpoint;
    var token := GetItem(w.storage, TokenKey);
    var headers := BuildHeaders(caller, token);
    sent := Sent(url, headers);
    w.Emit(Request(verb, endpoint));
    if response.Rejected? {
      result := Rejected(response.message);
      return;
    }
    var data := ReadBody(response.value, parseJson);
    if data.Rejected? {
      result := data;
      return;
    }
    if !response.value.ok {
      if response.value.status == 401 {
        w.EndSession();
        w.Emit(LocationAssign(LoginPath));
      }
      result := Rejected(ErrorMessage(data.value));
      return;
    }
    result := data;
  }

  const IdRequired := "Auction ID is required"

  /** `api.auctions.get(id)`: an empty id throws before any request. */
  method GetAuction(w: Window, isDev: bool, envUrl: Option<string>, id: string,
                    response: Outcome<Response>, parseJson: string -> Outcome<Json>)
    returns (result: Outcome<Body>)
    modifies w
    ensures id == "" ==> result == Rejected(IdRequired) && w.trace == old(w.trace) && w.storage == old(w.storage)
    ensures id != "" ==> |w.trace| > |old(w.trace)| && w.trace[|old(w.trace)|] == Request(Get, "/auctions/" + id)
  {
    if id == "" {
      return Rejected(IdRequired);
    }
    var sent;
    result, sent := ApiFetch(w, isDev, envUrl, Get, "/auctions/" + id, None, response, parseJson);
  }
}

=== FILE: auction_card.dfy ===
/**
 * `AuctionCard`: one auction as a link card. Its remaining time is clamped
 * at zero on both units, so an ended auction reads "0m".
 */
module AuctionCard {
  import opened JsCore
  import opened Browser
  import opened Countdown

  /**
   * An auction as the pages receive it; `mongoId` is the `_id` field and
   * `endTime` is the parsed end instant in milliseconds.
   */
  datatype Auction = Auction(
    id: Option<string>,
    mongoId: Option<string>,
    title: Option<string>,
    description: Option<string>,
    endTime: int,
    ownerId: Option<string>,
    status: Option<string>)

  /** Whole hours and the minutes within the hour, as a card or list row shows them. */
  datatype Clock = Clock(hours: int, minutes: int)

  function Max0(x: int): int { if x < 0 then 0 else x }

  /** `Math.max(0, …)` of the hours and minutes of `timeRemaining`. */
  function ClampedClock(timeRemaining: int): (c: Clock)
    ensures 0 <= c.hours && 0 <= c.minutes < 60
    ensures timeRemaining >= 0 ==>
      c.hours == timeRemaining / MsPerHour && c.minutes == (timeRemaining / MsPerMinute) % 60
    ensures timeRemaining <= 0 ==> c == Clock(0, 0)
  {
    if timeRemaining >= 0 then
      MinutesOfWholeMinutes(timeRemaining);
      Reconstruct(timeRemaining);
      Clock(Max0(Hours(timeRemaining)), Max0(Minutes(timeRemaining)))
    else
      Clock(Max0(Hours(timeRemaining)), Max0(Minutes(timeRemaining)))
  }

  /** The clamped clock is `Math.max(0, Math.floor(…))` of the JavaScript expressions. */
  lemma ClampedAgreesWithJs(timeRemaining: int)
    ensures ClampedClock(timeRemaining) ==
      Clock(Max0(JsHours(timeRemaining)), Max0(JsMinutes(timeRemaining)))
  {
    HoursAgreesWithJs(timeRemaining);
    MinutesAgreesWithJs(timeRemaining);
  }

  /** The time label of a card whose end is `timeRemaining` milliseconds away. */
  function CardLabel(timeRemaining: int): (s: string)
    ensures timeRemaining >= MsPerHour ==>
      s == IntToString(timeRemaining / MsPerHour) + "h " + IntToString((timeRemaining / MsPerMinute) % 60) + "m"
    ensures timeRemaining < MsPerHour ==> s == IntToString(Max0(timeRemaining) / MsPerMinute) + "m"
  {
    var c := ClampedClock(timeRemaining);
    HoursMinutesLabel(c.hours, c.minutes)
  }

  /** Two cards with the same label show the same clamped hours and minutes. */
  lemma CardLabelReadsBack(t1: int, t2: int)
    requires CardLabel(t1) == CardLabel(t2)
    ensures ClampedClock(t1) == ClampedClock(t2)
  {
    var c1, c2 := ClampedClock(t1), ClampedClock(t2);
    HoursMinutesLabelReadsBack(c1.hours, c1.minutes, c2.hours, c2.minutes);
  }

  /** An ended auction's card reads "0m", and a running one never shows a minus sign. */
  lemma CardLabelOfEnded(timeRemaining: int)
    ensures timeRemaining <= 0 ==> CardLabel(timeRemaining) == "0m"
    ensures '-' !in CardLabel(timeRemaining)
  {
    var c := ClampedClock(timeRemaining);
    if c.hours > 0 {
      var s := IntToString(c.hours) + "h " + IntToString(c.minutes) + "m";
      assert IntToString(c.hours) == NatToString(c.hours);
      assert IntToString(c.minutes) == NatToString(c.minutes);
      assert forall i :: 0 <= i < |s| ==> s[i] != '-';
    } else {
      assert IntToString(c.minutes) == NatToString(c.minutes);
      assert forall i :: 0 <= i < |CardLabel(timeRemaining)| ==> CardLabel(timeRemaining)[i] != '-';
    }
  }

  /** `/auctions/${auction.id ?? auction._id}`. */
  function CardHref(a: Auction): (s: string)
    ensures a.id.Some? ==> s == "/auctions/" + a.id.value
    ensures a.id.None? && a.mongoId.Some? ==> s == "/auctions/" + a.mongoId.value
    ensures a.id.None? && a.mongoId.None? ==> s == "/auctions/undefined"
  {
    "/auctions/" + Interpolate(if a.id.Some? then a.id else a.mongoId)
  }
}

=== FILE: auctions_page.dfy ===
/**
 * The public auction list page: fetches every auction once, then shows a
 * loading, error, empty or list screen. Its remaining-time label is NOT
 * clamped, unlike the card's.
 */
module AuctionsPage {
  import opened JsCore
  import opened Browser
  import opened Countdown
  import opened AuctionCard

  /** `Math.floor(t / 1000 / 60 / 60)` and `Math.floor((t / 1000 / 60) % 60)` without clamping. */
  function ListClock(timeRemaining: int): (c: Clock)
    ensures c.hours == JsHours(timeRemaining) && c.minutes == JsMinutes(timeRemaining)
    ensures timeRemaining >= 0 ==> c == ClampedClock(timeRemaining)
    ensures timeRemaining < 0 ==> c.hours < 0 && -60 <= c.minutes <= 0
  {
    HoursAgreesWithJs(timeRemaining);
    MinutesAgreesWithJs(timeRemaining);
    var c := Clock(Hours(timeRemaining), Minutes(timeRemaining));
    if timeRemaining >= 0 then MinutesOfWholeMinutes(timeRemaining); Reconstruct(timeRemaining); c
    else c
  }

  /** The list row's label: hours and minutes from one hour on, whole minutes below, a JavaScript minute count once ended. */
  function ListLabel(timeRemaining: int): (s: string)
    ensures timeRemaining >= MsPerHour ==>
      s == IntToString(timeRemaining / MsPerHour) + "h " + IntToString((timeRemaining / MsPerMinute) % 60) + "m"
    ensures 0 <= timeRemaining < MsPerHour ==> s == IntToString(timeRemaining / MsPerMinute) + "m"
    ensures timeRemaining < 0 ==> s == IntToString(JsMinutes(timeRemaining)) + "m"
  {
    var c := ListClock(timeRemaining);
    HoursMinutesLabel(c.hours, c.minutes)
  }

  /** Two list rows with the same label show the same minutes, and the same hours from one hour on. */
  lemma ListLabelReadsBack(t1: int, t2: int)
    requires ListLabel(t1) == ListLabel(t2)
    ensures ListClock(t1).minutes == ListClock(t2).minutes
    ensures t1 >= MsPerHour ==> ListClock(t1) == ListClock(t2)
  {
    var c1, c2 := ListClock(t1), ListClock(t2);
    HoursMinutesLabelReadsBack(c1.hours, c1.minutes, c2.hours, c2.minutes);
  }

  /** A running auction reads the same on the list as on a card; an ended one shows only minutes, which may be negative. */
  lemma ListLabelAgainstCard(timeRemaining: int)
    ensures timeRemaining >= 0 ==> ListLabel(timeRemaining) == CardLabel(timeRemaining)
    ensures timeRemaining < 0 ==> ListLabel(timeRemaining) == IntToString(ListClock(timeRemaining).minutes) + "m"
  {
  }

  /** One millisecond after the end the list shows "-1m" where the card shows "0m". */
  lemma EndedAuctionLabels()
    ensures ListLabel(-1) == "-1m"
    ensures CardLabel(-1) == "0m"
  {
    assert TruncRem(-1, MsPerHour) == -1;
    assert ListClock(-1) == Clock(-1, -1);
    assert NatToString(1) == "1";
    CardLabelOfEnded(-1);
  }

  /** `key={auction.id || auction.title}`. */
  function ListKey(a: Auction): (k: Option<string>)
    ensures Truthy(a.id) ==> k == a.id
    ensures !Truthy(a.id) ==> k == a.title
  {
    Or(a.id, a.title)
  }

  /** `/auctions/${auction.id}`: no `_id` fallback on this page. */
  function ListHref(a: Auction): (s: string)
    ensures a.id.Some? ==> s == "/auctions/" + a.id.value
    ensures a.id.None? ==> s == "/auctions/undefined"
  {
    "/auctions/" + Interpolate(a.id)
  }

  const ListErrorFallback := "Erro ao carregar leilões"
  const NoAuctionsText := "Nenhum leilão disponível."

  /** The page's state. */
  class Page {
    var auctions: seq<Auction>
    var loading: bool
    var error: string

    constructor ()
      ensures auctions == [] && loading && error == ""
      ensures View() == LoadingScreen
    {
      auctions := [];
      loading := true;
      error := "";
    }

    /** Which screen renders: loading first, then a non-empty error, then the empty text, else the list. */
    function View(): (v: Screen<Auction>)
      reads this
      ensures v == LoadingScreen <==> loading
      ensures v.ErrorScreen? <==> !loading && error != ""
      ensures v.ErrorScreen? ==> v.text == error
      ensures v.EmptyScreen? ==> v.text == NoAuctionsText && auctions == []
      ensures v.ListScreen? ==> v.items == auctions && auctions != []
    {
      if loading then LoadingScreen
      else if error != "" then ErrorScreen(error)
      else if |auctions| == 0 then EmptyScreen(NoAuctionsText)
      else ListScreen(auctions)
    }

    /**
     * `fetchData`: one request for the list; its result replaces the list, a
     * thrown error sets the message or the fallback, and loading always ends.
     */
    method FetchData(w: Window, outcome: Outcome<seq<Auction>>)
      modifies this, w
      ensures w.trace == old(w.trace) + [Request(Get, "/auctions")] && w.storage == old(w.storage)
      ensures !loading && View() != LoadingScreen
      ensures outcome.Resolved? ==> auctions == outcome.value && error == old(error)
      ensures outcome.Rejected? ==>
        auctions == old(auctions) && error == MessageOr(outcome.message, ListErrorFallback)
        && View() == ErrorScreen(error)
    {
      loading := true;
      w.Emit(Request(Get, "/auctions"));
      match outcome {
        case Resolved(data) =>
          auctions := data;
        case Rejected(message) =>
          error := MessageOr(message, ListErrorFallback);
      }
      loading := false;
    }
  }

  /** A first fetch that returns no auctions ends on the empty text; one that returns some ends on the list. */
  method FirstLoad(w: Window, outcome: Outcome<seq<Auction>>) returns (v: Screen<Auction>)
    modifies w
    ensures outcome.Resolved? && outcome.value == [] ==> v == EmptyScreen(NoAuctionsText)
    ensures outcome.Resolved? && outcome.value != [] ==> v == ListScreen(outcome.value)
    ensures outcome.Rejected? ==> v.ErrorScreen? && v.text != ""
    ensures outcome.Rejected? ==> v == ErrorScreen(MessageOr(outcome.message, ListErrorFallback))
  {
    var page := new Page();
    page.FetchData(w, outcome);
    v := page.View();
  }
}

=== FILE: browser.dfy ===
/**
 * The browser as the pages see it: `localStorage` as a string-to-string map,
 * and everything a page does to the outside world (API requests, router
 * navigation, `window.location` assignments, `alert` boxes) as events
 * appended to a trace.
 */
module Browser {

  datatype Option<+T> = None | Some(value: T)

  /** JavaScript truthiness of a value that is either a string or null/undefined. */
  predicate Truthy(o: Option<string>)
  {
    o.Some? && o.value != ""
  }

  /** What a template literal prints for a string-or-undefined value. */
  function Interpolate(o: Option<string>): string
  {
    if o.Some? then o.value else "undefined"
  }

  /** `a || b` on string-or-undefined values. */
  function Or(a: Option<string>, b: Option<string>): (r: Option<string>)
    ensures Truthy(a) ==> r == a
    ensures !Truthy(a) ==> r == b
  {
    if Truthy(a) then a else b
  }

  /** `message || fallback`, the error text every page shows for a caught error. */
  function MessageOr(message: string, fallback: string): (r: string)
    ensures message != "" ==> r == message
    ensures message == "" ==> r == fallback
  {
    if message != "" then message else fallback
  }

  type Storage = map<string, string>

  const TokenKey := "token"
  const UserKey := "user"

  /** `localStorage.getItem(key)`: null when the key is absent. */
  function GetItem(storage: Storage, key: string): (r: Option<string>)
    ensures r.Some? <==> key in storage
    ensures r.Some? ==> r.value == storage[key]
  {
    if key in storage then Some(storage[key]) else None
  }

  /** Removing the two session keys, as every logout path does. */
  function ClearSession(storage: Storage): (r: Storage)
    ensures TokenKey !in r && UserKey !in r
    ensures forall k :: k in storage && k != TokenKey && k != UserKey ==> k in r && r[k] == storage[k]
    ensures forall k :: k in r ==> k in storage
  {
    storage - {TokenKey, UserKey}
  }

  /** The HTTP method of an API call; `fetch` defaults to GET. */
  datatype HttpMethod = Get | Post | Patch | Delete

  /** A side effect visible outside the page. */
  datatype Event =
    | Request(verb: HttpMethod, endpoint: string)   // an API call issued through the api client
    | RouterPush(path: string)       // router.push(path)
    | LocationAssign(path: string)   // window.location.href = path
    | Alert(message: string)         // alert(message)

  /** How an awaited call or a parse settles: a value, or a thrown error carrying its `message`. */
  datatype Outcome<+T> = Resolved(value: T) | Rejected(message: string)

  /** `JSON.parse` of stored text is abstract: any function that yields a value or throws. */
  type Parser<T> = string -> Outcome<T>

  /** The stored `user` object as the pages read it; every field may be missing. */
  datatype UserRecord = UserRecord(
    id: Option<string>,
    name: Option<string>,
    email: Option<string>,
    role: Option<string>,
    createdAt: Option<string>)

  /** What a data page renders at top level. */
  datatype Screen<+T> =
    | LoadingScreen
    | ErrorScreen(text: string)
    | EmptyScreen(text: string)
    | ListScreen(items: seq<T>)

  /** The browser state a page reads and changes. */
  class Window {
    var storage: Storage
    var trace: seq<Event>

    constructor (storage: Storage)
      ensures this.storage == storage && trace == []
    {
      this.storage := storage;
      trace := [];
    }

    method Emit(e: Event)
      modifies this
      ensures trace == old(trace) + [e] && storage == old(storage)
    {
      trace := trace + [e];
    }

    method SetItem(key: string, value: string)
      modifies this
      ensures storage == old(storage)[key := value] && trace == old(trace)
    {
      storage := storage[key := value];
    }

    /** Removes `token` and `user`; nothing else in storage changes. */
    method EndSession()
      modifies this
      ensures storage == ClearSession(old(storage)) && trace == old(trace)
    {
      storage := ClearSession(storage);
    }
  }
}

=== FILE: countdown.dfy ===
/**
 * Remaining-time arithmetic shared by the countdown hook and the auction
 * pages, and the `useCountdown` hook itself.
 *
 * The source computes on JavaScript numbers: `Math.floor(t / 1000 / 60 / 60)`,
 * `Math.floor((t / 1000 / 60) % 60)` and `Math.floor((t / 1000) % 60)`, where
 * `%` keeps the sign of the dividend. `JsHours`, `JsMinutes` and `JsSeconds`
 * state those expressions over exact reals; `Hours`, `Minutes` and `Seconds`
 * are the integer forms, proved equal to them for every integer `t`.
 */
module Countdown {
  import opened JsCore

  const MsPerSecond: int := 1000
  const MsPerMinute: int := 60000
  const MsPerHour: int := 3600000

  function JsHours(t: int): int { Floor(t as real / 1000.0 / 60.0 / 60.0) }
  function JsMinutes(t: int): int { Floor(JsRem(t as real / 1000.0 / 60.0, 60.0)) }
  function JsSeconds(t: int): int { Floor(JsRem(t as real / 1000.0, 60.0)) }

  function Hours(t: int): int { t / MsPerHour }
  function Minutes(t: int): int { TruncRem(t, MsPerHour) / MsPerMinute }
  function Seconds(t: int): int { TruncRem(t, MsPerMinute) / MsPerSecond }

  lemma HoursAgreesWithJs(t: int)
    ensures Hours(t) == JsHours(t)
  {
    assert t as real / 1000.0 / 60.0 / 60.0 == t as real / 3600000.0;
    FloorOfQuotient(t, MsPerHour);
  }

  lemma MinutesAgreesWithJs(t: int)
    ensures Minutes(t) == JsMinutes(t)
  {
    var x := t as real / 1000.0 / 60.0;
    assert x / 60.0 == t as real / 3600000.0;
    TruncOfQuotient(t, MsPerHour);
    var q, r := TruncDiv(t, MsPerHour), TruncRem(t, MsPerHour);
    assert JsRem(x, 60.0) == x - 60.0 * q as real;
    assert t as real == 3600000.0 * q as real + r as real;
    assert x - 60.0 * q as real == r as real / 60000.0;
    FloorOfQuotient(r, MsPerMinute);
  }

  lemma SecondsAgreesWithJs(t: int)
    ensures Seconds(t) == JsSeconds(t)
  {
    var x := t as real / 1000.0;
    assert x / 60.0 == t as real / 60000.0;
    TruncOfQuotient(t, MsPerMinute);
    var q, r := TruncDiv(t, MsPerMinute), TruncRem(t, MsPerMinute);
    assert JsRem(x, 60.0) == x - 60.0 * q as real;
    assert t as real == 60000.0 * q as real + r as real;
    assert x - 60.0 * q as real == r as real / 1000.0;
    FloorOfQuotient(r, MsPerSecond);
  }

  /** A positive multiple of a positive number is at least that number. */
  lemma MultipleAtLeast(d: int, k: int)
    requires d > 0 && k >= 1
    ensures d * k >= d
  {
    assert d * k == d * (k - 1) + d;
  }

  /** Division and remainder are determined by any decomposition with remainder in range. */
  lemma DivModOf(a: int, d: int, q: int, r: int)
    requires d > 0 && 0 <= r < d && a == d * q + r
    ensures a / d == q && a % d == r
  {
    var q', r' := a / d, a % d;
    assert d * q - d * q' == r' - r;
    if q > q' {
      assert d * (q - q') == d * q - d * q';
      MultipleAtLeast(d, q - q');
    } else if q < q' {
      assert d * (q' - q) == d * q' - d * q;
      MultipleAtLeast(d, q' - q);
    }
  }

  /** For a non-negative remaining time the three units rebuild the whole seconds. */
  lemma Reconstruct(t: int)
    requires t >= 0
    ensures Hours(t) * 3600 + Minutes(t) * 60 + Seconds(t) == t / 1000
    ensures 0 <= Minutes(t) < 60 && 0 <= Seconds(t) < 60
  {
    var s, u := t / 1000, t % 1000;
    var h, rh := s / 3600, s % 3600;
    var m, sec := rh / 60, rh % 60;
    assert s == 3600 * h + 60 * m + sec;
    DivModOf(t, MsPerHour, h, 60000 * m + 1000 * sec + u);
    DivModOf(60000 * m + 1000 * sec + u, MsPerMinute, m, 1000 * sec + u);
    DivModOf(t, MsPerMinute, 60 * h + m, 1000 * sec + u);
    DivModOf(1000 * sec + u, MsPerSecond, sec, u);
  }

  /** For a non-negative remaining time, minutes are the whole minutes modulo an hour. */
  lemma MinutesOfWholeMinutes(t: int)
    requires t >= 0
    ensures Minutes(t) == (t / MsPerMinute) % 60
  {
    var w := t / MsPerMinute;
    var h, m := w / 60, w % 60;
    DivModOf(t, MsPerHour, h, 60000 * m + t % MsPerMinute);
    DivModOf(60000 * m + t % MsPerMinute, MsPerMinute, m, t % MsPerMinute);
  }

  /** What `useCountdown` returns. */
  datatype Remaining = Remaining(hours: int, minutes: int, seconds: int, expired: bool)

  function Decompose(timeLeft: int): (r: Remaining)
    ensures r.expired <==> timeLeft <= 0
    ensures timeLeft >= 0 ==> 0 <= r.hours && 0 <= r.minutes < 60 && 0 <= r.seconds < 60
    ensures timeLeft >= 0 ==> r.hours * 3600 + r.minutes * 60 + r.seconds == timeLeft / 1000
    ensures timeLeft < 0 ==> r.hours < 0 && -60 <= r.minutes <= 0 && -60 <= r.seconds <= 0
    ensures 0 < timeLeft < 1000 ==> !r.expired && r.hours == 0 && r.minutes == 0 && r.seconds == 0
  {
    if timeLeft >= 0 then Reconstruct(timeLeft); Remaining(Hours(timeLeft), Minutes(timeLeft), Seconds(timeLeft), timeLeft == 0)
    else Remaining(Hours(timeLeft), Minutes(timeLeft), Seconds(timeLeft), true)
  }

  /** The components `Decompose` reports are the JavaScript expressions' values. */
  lemma DecomposeAgreesWithJs(timeLeft: int)
    ensures Decompose(timeLeft) ==
      Remaining(JsHours(timeLeft), JsMinutes(timeLeft), JsSeconds(timeLeft), timeLeft <= 0)
  {
    HoursAgreesWithJs(timeLeft);
    MinutesAgreesWithJs(timeLeft);
    SecondsAgreesWithJs(timeLeft);
  }

  /** One mounted `useCountdown(targetDate)`; instants are integer milliseconds. */
  class CountdownHook {
    var target: int
    /** The `timeLeft` state. */
    var timeLeft: int
    /** Whether the one-second interval of the current effect is scheduled. */
    var ticking: bool

    /** First render: `timeLeft` is computed at once, then the effect starts the interval. */
    constructor (target: int, now: int)
      ensures this.target == target && timeLeft == target - now && ticking
      ensures target <= now ==> Value().expired
    {
      this.target := target;
      timeLeft := target - now;
      ticking := true;
    }

    function Value(): Remaining
      reads this
    {
      Decompose(timeLeft)
    }

    /** The interval callback firing at instant `now`. */
    method Tick(now: int)
      modifies this
      ensures target == old(target) && ticking == old(ticking)
      ensures ticking ==> timeLeft == target - now
      ensures !ticking ==> timeLeft == old(timeLeft)
    {
      if ticking {
        timeLeft := target - now;
      }
    }

    /**
     * A new `targetDate`: the old interval is cleared and a new one started.
     * The state keeps its old value until the next tick, since `useState`
     * only uses its initial value on the first render.
     */
    method ChangeTarget(newTarget: int)
      modifies this
      ensures target == newTarget && ticking && timeLeft == old(timeLeft)
    {
      target := newTarget;
      ticking := true;
    }

    /** Unmount: the interval is cleared and no later tick changes the state. */
    method Unmount()
      modifies this
      ensures !ticking && target == old(target) && timeLeft == old(timeLeft)
    {
      ticking := false;
    }
  }

  /** Two ticks at increasing instants: the remaining time strictly decreases, and once expired it stays so. */
  method TickTwice(hook: CountdownHook, now1: int, now2: int)
    requires hook.ticking && now1 < now2
    modifies hook
    ensures hook.timeLeft == hook.target - now2 < hook.target - now1
    ensures hook.target <= now1 ==> hook.Value().expired
  {
    hook.Tick(now1);
    hook.Tick(now2);
  }

  /** `CountdownTimer`: "Encerrado" once expired, otherwise hours, minutes and seconds. */
  function TimerLabel(r: Remaining): (s: string)
    ensures s == "Encerrado" <==> r.expired
    ensures !r.expired ==> |s| > 0 && s[|s| - 1] == 's' && 'h' in s
    ensures !r.expired ==>
      s == IntToString(r.hours) + "h " + IntToString(r.minutes) + "m " + IntToString(r.seconds) + "s"
  {
    if r.expired then "Encerrado"
    else
      var h := IntToString(r.hours);
      var s := h + "h " + IntToString(r.minutes) + "m " + IntToString(r.seconds) + "s";
      assert s[|h|] == 'h';
      s
  }

  /** The `hours > 0 ? `${hours}h ${minutes}m` : `${minutes}m`` label of the auction pages. */
  function HoursMinutesLabel(hours: int, minutes: int): (s: string)
    ensures ('h' in s) <==> hours > 0
    ensures |s| > 0 && s[|s| - 1] == 'm'
    ensures hours > 0 ==> s == IntToString(hours) + "h " + IntToString(minutes) + "m"
    ensures hours <= 0 ==> s == IntToString(minutes) + "m"
  {
    if hours > 0 then
      var h := IntToString(hours);
      var s := h + "h " + IntToString(minutes) + "m";
      assert s[|h|] == 'h';
      s
    else
      var s := IntToString(minutes) + "m";
      assert forall i :: 0 <= i < |s| ==> s[i] != 'h';
      s
  }

  /** A printed number followed by a mark that is no digit nor sign: the number and what follows the mark are fixed. */
  lemma NumberThenMark(a: int, t1: string, b: int, t2: string, c: char)
    requires !IsDigit(c) && c != '-'
    requires IntToString(a) + [c] + t1 == IntToString(b) + [c] + t2
    ensures a == b && t1 == t2
  {
    IntToStringLacks(a, c);
    IntToStringLacks(b, c);
    SplitAtFirst(IntToString(a), t1, IntToString(b), t2, c);
    IntToStringInjective(a, b);
  }

  /** The text `" <m>m <s>s"` gives back its two pieces when the first holds no "m". */
  lemma MinutesSecondsPieces(m1: string, s1: string, m2: string, s2: string)
    requires 'm' !in m1 && 'm' !in m2
    requires " " + m1 + "m " + s1 + "s" == " " + m2 + "m " + s2 + "s"
    ensures m1 == m2 && s1 == s2
  {
    var u1, u2 := " " + s1 + "s", " " + s2 + "s";
    assert (" " + m1 + "m " + s1 + "s")[1..] == m1 + ['m'] + u1;
    assert (" " + m2 + "m " + s2 + "s")[1..] == m2 + ['m'] + u2;
    SplitAtFirst(m1, u1, m2, u2, 'm');
    assert s1 == u1[1..|u1| - 1];
    assert s2 == u2[1..|u2| - 1];
  }

  /** The part of a running timer's label after the hours mark gives back the minutes and seconds. */
  lemma MinutesSecondsReadBack(m1: int, s1: int, m2: int, s2: int)
    requires " " + IntToString(m1) + "m " + IntToString(s1) + "s" == " " + IntToString(m2) + "m " + IntToString(s2) + "s"
    ensures m1 == m2 && s1 == s2
  {
    IntToStringLacks(m1, 'm');
    IntToStringLacks(m2, 'm');
    MinutesSecondsPieces(IntToString(m1), IntToString(s1), IntToString(m2), IntToString(s2));
    IntToStringInjective(m1, m2);
    IntToStringInjective(s1, s2);
  }

  /** The hours mark splits a running timer's label into the hours and the rest. */
  lemma HoursMarkSplits(h: string, m: string, sec: string)
    ensures h + "h " + m + "m " + sec + "s" == h + ['h'] + (" " + m + "m " + sec + "s")
  {
  }

  /** A running timer's label gives back its hours, minutes and seconds: no two clocks share a label. */
  lemma TimerLabelReadsBack(r1: Remaining, r2: Remaining)
    requires TimerLabel(r1) == TimerLabel(r2)
    ensures r1.expired <==> r2.expired
    ensures !r1.expired ==> r1 == r2
  {
    if !r1.expired {
      var v1 := " " + IntToString(r1.minutes) + "m " + IntToString(r1.seconds) + "s";
      var v2 := " " + IntToString(r2.minutes) + "m " + IntToString(r2.seconds) + "s";
      HoursMarkSplits(IntToString(r1.hours), IntToString(r1.minutes), IntToString(r1.seconds));
      HoursMarkSplits(IntToString(r2.hours), IntToString(r2.minutes), IntToString(r2.seconds));
      NumberThenMark(r1.hours, v1, r2.hours, v2, 'h');
      MinutesSecondsReadBack(r1.minutes, r1.seconds, r2.minutes, r2.seconds);
    }
  }

  /** The hours mark splits an hours-and-minutes label into the hours and the rest. */
  lemma HoursMarkSplitsShort(h: string, m: string)
    ensures h + "h " + m + "m" == h + ['h'] + (" " + m + "m")
  {
  }

  /** The hours-and-minutes label gives back its minutes, and its hours whenever it shows them. */
  lemma HoursMinutesLabelReadsBack(h1: int, m1: int, h2: int, m2: int)
    requires HoursMinutesLabel(h1, m1) == HoursMinutesLabel(h2, m2)
    ensures (h1 > 0 <==> h2 > 0) && m1 == m2
    ensures h1 > 0 ==> h1 == h2
  {
    var s := HoursMinutesLabel(h1, m1);
    var n1, n2 := IntToString(m1), IntToString(m2);
    if h1 > 0 {
      var t1, t2 := " " + n1 + "m", " " + n2 + "m";
      HoursMarkSplitsShort(IntToString(h1), n1);
      HoursMarkSplitsShort(IntToString(h2), n2);
      NumberThenMark(h1, t1, h2, t2, 'h');
      assert n1 == t1[1..|t1| - 1];
      assert n2 == t2[1..|t2| - 1];
    } else {
      assert n1 == s[..|s| - 1];
      assert n2 == s[..|s| - 1];
    }
    IntToStringInjective(m1, m2);
  }
}

=== FILE: create_auction.dfy ===
/**
 * The create-auction page: reads the stored user's role, validates the form
 * with an ordered chain of checks, and submits a trimmed payload, then goes
 * to the new auction or to the list.
 *
 * `Number(…)` and `new Date(…).getTime()` are abstract parameters that give a
 * number or NaN; the current instant is a parameter too.
 */
module CreateAuction {
  import opened JsCore
  import opened Browser

  /** A JavaScript number as far as the checks need it: finite, or NaN. */
  datatype Num = Finite(value: real) | NaN

  /** `x <= y` on numbers: every comparison with NaN is false. */
  predicate NumAtMost(x: Num, y: real)
  {
    x.Finite? && x.value <= y
  }

  /** The form state; every field is the raw input text. */
  datatype Form = Form(title: string, description: string, startingPrice: string, endTime: string)

  const TitleRequired := "Title is required"
  const PriceNotPositive := "Starting price must be positive"
  const EndTimeRequired := "End time is required"
  const EndTimeNotFuture := "End time must be in the future"

  /** The end instant passes when it parses and lies strictly after `now`. */
  predicate EndInFuture(endTime: Num, now: int)
  {
    endTime.Finite? && endTime.value > now as real
  }

  /** `validate()`: the first failing check's message, or null when all pass. */
  function Validate(form: Form, toNumber: string -> Num, parseDate: string -> Num, now: int): (r: Option<string>)
    ensures r.None? <==>
      Trim(form.title) != "" && form.startingPrice != "" && !NumAtMost(toNumber(form.startingPrice), 0.0)
      && form.endTime != "" && EndInFuture(parseDate(form.endTime), now)
    ensures Trim(form.title) == "" ==> r == Some(TitleRequired)
    ensures Trim(form.title) != "" && (form.startingPrice == "" || NumAtMost(toNumber(form.startingPrice), 0.0)) ==>
      r == Some(PriceNotPositive)
    ensures r == Some(EndTimeRequired) <==>
      Trim(form.title) != "" && form.startingPrice != "" && !NumAtMost(toNumber(form.startingPrice), 0.0)
      && form.endTime == ""
    ensures r == Some(EndTimeNotFuture) <==>
      Trim(form.title) != "" && form.startingPrice != "" && !NumAtMost(toNumber(form.startingPrice), 0.0)
      && form.endTime != "" && !EndInFuture(parseDate(form.endTime), now)
  {
    if Trim(form.title) == "" then Some(TitleRequired)
    else if form.startingPrice == "" || NumAtMost(toNumber(form.startingPrice), 0.0) then Some(PriceNotPositive)
    else if form.endTime == "" then Some(EndTimeRequired)
    else if !EndInFuture(parseDate(form.endTime), now) then Some(EndTimeNotFuture)
    else None
  }

  /** A title made only of whitespace is rejected as missing, whatever the other fields hold. */
  lemma WhitespaceTitleRejected(form: Form, toNumber: string -> Num, parseDate: string -> Num, now: int)
    requires AllWhitespace(form.title)
    ensures Validate(form, toNumber, parseDate, now) == Some(TitleRequired)
  {
    TrimEmptyIff(form.title);
  }

  /** A form that passes has a title with a visible character and an end strictly in the future. */
  lemma ValidFormHasTitle(form: Form, toNumber: string -> Num, parseDate: string -> Num, now: int)
    requires Validate(form, toNumber, parseDate, now).None?
    ensures !AllWhitespace(form.title)
    ensures parseDate(form.endTime).Finite? && parseDate(form.endTime).value > now as real
  {
    TrimEmptyIff(form.title);
  }

  /** A price text that is not a number is NaN, and NaN is not `<= 0`: such a price passes the check. */
  lemma NonNumericPricePasses(form: Form, toNumber: string -> Num, parseDate: string -> Num, now: int)
    requires Trim(form.title) != "" && form.startingPrice != "" && toNumber(form.startingPrice) == NaN
    ensures Validate(form, toNumber, parseDate, now) != Some(PriceNotPositive)
  {
  }

  /** What is sent to `api.auctions.create`. */
  datatype Payload = Payload(title: string, description: string, startingPrice: Num, endTime: Num)

  function MakePayload(form: Form, toNumber: string -> Num, parseDate: string -> Num): (p: Payload)
    ensures p.title == Trim(form.title) && p.description == Trim(form.description)
    ensures p.startingPrice == toNumber(form.startingPrice) && p.endTime == parseDate(form.endTime)
  {
    Payload(Trim(form.title), Trim(form.description), toNumber(form.startingPrice), parseDate(form.endTime))
  }

  /** The payload's text fields are already trimmed: trimming them again changes nothing. */
  lemma PayloadTrimmed(form: Form, toNumber: string -> Num, parseDate: string -> Num)
    ensures var p := MakePayload(form, toNumber, parseDate);
      Trim(p.title) == p.title && Trim(p.description) == p.description
  {
    TrimIdempotent(form.title);
    TrimIdempotent(form.description);
  }

  /** The create call's result: `created?.id` and `created?._id`; null when nothing came back. */
  datatype Created = Created(id: Option<string>, mongoId: Option<string>)

  /** `id = created?.id || created?._id`; a truthy id leads to the auction, anything else to the list. */
  function RedirectTarget(created: Option<Created>): (path: string)
    ensures created.Some? && Truthy(created.value.id) ==> path == "/auctions/" + created.value.id.value
    ensures created.Some? && !Truthy(created.value.id) && Truthy(created.value.mongoId) ==>
      path == "/auctions/" + created.value.mongoId.value
    ensures created.None? || (!Truthy(created.value.id) && !Truthy(created.value.mongoId)) ==> path == "/auctions"
  {
    var id := if created.Some? then Or(created.value.id, created.value.mongoId) else None;
    if Truthy(id) then "/auctions/" + id.value else "/auctions"
  }

  const SellerRole := "SELLER"
  const SellersOnly := "Only sellers can create auctions."
  const NotAuthenticated := "User not authenticated."
  const CreateFallback := "Failed to create auction"

  class Page {
    /** The `userRole` state; null until a role is read. */
    var role: Option<string>
    var loading: bool
    var error: string

    constructor ()
      ensures role.None? && !loading && error == ""
    {
      role := None;
      loading := false;
      error := "";
    }

    /**
     * The mount effect: with no stored user (or an empty one) the page goes
     * to "/login"; a user that does not parse leaves the role null.
     */
    method LoadRole(w: Window, parse: Parser<UserRecord>)
      modifies this, w
      ensures w.storage == old(w.storage) && loading == old(loading) && error == old(error)
      ensures !Truthy(GetItem(w.storage, UserKey)) ==>
        w.trace == old(w.trace) + [RouterPush("/login")] && role == old(role)
      ensures Truthy(GetItem(w.storage, UserKey)) ==>
        w.trace == old(w.trace)
        && role == match parse(w.storage[UserKey]) { case Resolved(u) => u.role case Rejected(_) => None }
    {
      var raw := GetItem(w.storage, UserKey);
      if !Truthy(raw) {
        w.Emit(RouterPush("/login"));
        return;
      }
      match parse(raw.value) {
        case Resolved(u) => role := u.role;
        case Rejected(_) => role := None;
      }
    }

    /**
     * `handleSubmit`. The role gate comes before validation; a missing token
     * stops before the request. `sent` is the payload of the create call,
     * when one is made.
     */
    method Submit(w: Window, form: Form, toNumber: string -> Num, parseDate: string -> Num, now: int,
                  created: Outcome<Option<Created>>) returns (sent: Option<Payload>)
      modifies this, w
      ensures w.storage == old(w.storage) && role == old(role)
      ensures role != Some(SellerRole) ==>
        error == SellersOnly && w.trace == old(w.trace) && sent.None? && loading == old(loading)
      ensures role == Some(SellerRole) && Validate(form, toNumber, parseDate, now).Some? ==>
        error == Validate(form, toNumber, parseDate, now).value
        && w.trace == old(w.trace) && sent.None? && loading == old(loading)
      ensures (role == Some(SellerRole) && Validate(form, toNumber, parseDate, now).None?
               && !Truthy(GetItem(w.storage, TokenKey))) ==>
        error == NotAuthenticated && w.trace == old(w.trace) && sent.None? && !loading
      ensures (role == Some(SellerRole) && Validate(form, toNumber, parseDate, now).None?
               && Truthy(GetItem(w.storage, TokenKey))) ==>
        sent == Some(MakePayload(form, toNumber, parseDate)) && !loading
        && match created {
          case Resolved(c) =>
            w.trace == old(w.trace) + [Request(Post, "/auctions"), RouterPush(RedirectTarget(c))] && error == ""
          case Rejected(m) =>
            w.trace == old(w.trace) + [Request(Post, "/auctions")] && error == MessageOr(m, CreateFallback)
        }
    {
      error := "";
      sent := None;
      if role != Some(SellerRole) {
        error := SellersOnly;
        return;
      }
      var validationError := Validate(form, toNumber, parseDate, now);
      if validationError.Some? {
        error := validationError.value;
        return;
      }
      loading := true;
      var token := GetItem(w.storage, TokenKey);
      if !Truthy(token) {
        error := NotAuthenticated;
        loading := false;
        return;
      }
      sent := Some(MakePayload(form, toNumber, parseDate));
      Send(w, created);
    }

    /** The create call and what follows it: the redirect, or the thrown message; loading ends. */
    method Send(w: Window, created: Outcome<Option<Created>>)
      modifies this, w
      ensures w.storage == old(w.storage) && role == old(role) && !loading
      ensures match created {
        case Resolved(c) =>
          w.trace == old(w.trace) + [Request(Post, "/auctions"), RouterPush(RedirectTarget(c))] && error == old(error)
        case Rejected(m) =>
          w.trace == old(w.trace) + [Request(Post, "/auctions")] && error == MessageOr(m, CreateFallback)
      }
    {
      w.Emit(Request(Post, "/auctions"));
      match created {
        case Resolved(c) =>
          w.Emit(RouterPush(RedirectTarget(c)));
        case Rejected(m) =>
          error := MessageOr(m, CreateFallback);
      }
      loading := false;
    }
  }

  /** A buyer never reaches validation: even an invalid form yields only the role error. */
  method BuyerSubmits(w: Window, form: Form, toNumber: string -> Num, parseDate: string -> Num, now: int)
    returns (message: string)
    modifies w
    ensures message == SellersOnly && w.trace == old(w.trace)
  {
    var page := new Page();
    page.role := Some("BUYER");
    var sent := page.Submit(w, form, toNumber, parseDate, now, Resolved(None));
    message := page.error;
  }
}

=== FILE: js_core.dfy ===
/**
 * The handful of JavaScript built-ins the front end leans on, stated with
 * their ECMAScript meaning: `Math.floor`, the truncating `%` operator,
 * number-to-string conversion of integers, `String.prototype.trim`,
 * `String.prototype.split` on a one-character separator and
 * `String.prototype.includes`.
 */
module JsCore {

  // ---------------------------------------------------------------------
  // Numbers
  // ---------------------------------------------------------------------

  /** `Math.floor` on an exact real. */
  function Floor(x: real): (r: int)
    ensures r as real <= x < r as real + 1.0
  {
    x.Floor
  }

  /** Rounding toward zero, the quotient the `%` operator uses. */
  function Trunc(x: real): (r: int)
    ensures x >= 0.0 ==> 0 <= r && r as real <= x < r as real + 1.0
    ensures x < 0.0 ==> r <= 0 && r as real - 1.0 < x <= r as real
  {
    if x >= 0.0 then x.Floor else -((-x).Floor)
  }

  /** The `%` operator on finite numbers: the remainder takes the sign of the dividend. */
  function JsRem(x: real, y: real): real
    requires y != 0.0
  {
    x - y * (Trunc(x / y) as real)
  }

  /** Integer division rounding toward zero. */
  function TruncDiv(a: int, d: int): int
    requires d > 0
  {
    if a >= 0 then a / d else -((-a) / d)
  }

  /** The `%` operator on integers: `a - d * TruncDiv(a, d)`. */
  function TruncRem(a: int, d: int): (r: int)
    requires d > 0
    ensures a >= 0 ==> 0 <= r < d
    ensures a < 0 ==> -d < r <= 0
    ensures a == d * TruncDiv(a, d) + r
  {
    if a >= 0 then a % d else -((-a) % d)
  }

  /** For a positive divisor, flooring the exact quotient is Dafny's `/`. */
  lemma FloorOfQuotient(a: int, d: int)
    requires d > 0
    ensures Floor(a as real / d as real) == a / d
  {
    var q, r := a / d, a % d;
    assert a == d * q + r;
    assert (a as real) == (d as real) * (q as real) + (r as real);
    var x := a as real / d as real;
    assert x == q as real + r as real / d as real;
    assert 0.0 <= r as real / d as real < 1.0;
  }

  /** For a positive divisor, truncating the exact quotient is `TruncDiv`. */
  lemma TruncOfQuotient(a: int, d: int)
    requires d > 0
    ensures Trunc(a as real / d as real) == TruncDiv(a, d)
  {
    if a >= 0 {
      FloorOfQuotient(a, d);
    } else {
      FloorOfQuotient(-a, d);
      assert -(a as real / d as real) == (-a) as real / d as real;
    }
  }

  // ---------------------------------------------------------------------
  // Integer to decimal string (what a template literal prints for an integer)
  // ---------------------------------------------------------------------

  predicate IsDigit(c: char) { '0' <= c <= '9' }

  function DigitChar(d: int): (c: char)
    requires 0 <= d < 10
    ensures IsDigit(c)
  {
    "0123456789"[d]
  }

  function DigitValue(c: char): (d: int)
    requires IsDigit(c)
    ensures 0 <= d < 10
  {
    (c as int) - ('0' as int)
  }

  /** Decimal digits of a natural number, most significant first, no leading zeros. */
  function NatToString(n: nat): (s: string)
    ensures |s| >= 1
    ensures forall i :: 0 <= i < |s| ==> IsDigit(s[i])
    ensures |s| > 1 ==> s[0] != '0'
    decreases n
  {
    if n < 10 then [DigitChar(n)] else NatToString(n / 10) + [DigitChar(n % 10)]
  }

  /** `String(n)` for an integer `n`. */
  function IntToString(n: int): (s: string)
    ensures |s| >= 1
    ensures forall i :: 0 <= i < |s| ==> IsDigit(s[i]) || s[i] == '-'
    ensures (s[0] == '-') <==> n < 0
  {
    if n < 0 then "-" + NatToString(-n) else NatToString(n)
  }

  /** Reads a non-empty run of decimal digits back as a number. */
  function ParseDigits(s: string): int
    requires forall i :: 0 <= i < |s| ==> IsDigit(s[i])
    decreases |s|
  {
    if s == [] then 0 else 10 * ParseDigits(s[..|s| - 1]) + DigitValue(s[|s| - 1])
  }

  /** The decimal rendering of a number reads back as that number. */
  lemma {:induction false} ParseNatToString(n: nat)
    ensures ParseDigits(NatToString(n)) == n
    decreases n
  {
    var s := NatToString(n);
    if n < 10 {
      assert s[..|s| - 1] == [];
    } else {
      ParseNatToString(n / 10);
      assert s[..|s| - 1] == NatToString(n / 10);
      assert DigitValue(DigitChar(n % 10)) == n % 10;
    }
  }

  /** Distinct integers print differently. */
  lemma IntToStringInjective(a: int, b: int)
    requires IntToString(a) == IntToString(b)
    ensures a == b
  {
    var s := IntToString(a);
    assert (a < 0) == (b < 0) by {
      assert s[0] == IntToString(b)[0];
    }
    if a < 0 {
      var na, nb: nat := -a, -b;
      assert s == "-" + NatToString(na);
      assert IntToString(b) == "-" + NatToString(nb);
      assert NatToString(na) == s[1..];
      assert NatToString(nb) == s[1..];
      ParseNatToString(na);
      ParseNatToString(nb);
    } else {
      ParseNatToString(a);
      ParseNatToString(b);
    }
  }

  /** A printed integer holds nothing but digits and a sign, so any other character marks where it ends. */
  lemma IntToStringLacks(n: int, c: char)
    requires !IsDigit(c) && c != '-'
    ensures c !in IntToString(n)
  {
    var s := IntToString(n);
    assert forall i :: 0 <= i < |s| ==> s[i] != c;
  }

  // ---------------------------------------------------------------------
  // String.prototype.trim
  // ---------------------------------------------------------------------

  /** WhiteSpace and LineTerminator code points as ECMAScript's `trim` removes them. */
  predicate IsWhitespace(c: char)
  {
    c == ' ' || c == '\t' || c == '\n' || c == '\r' || c == '\U{0B}' || c == '\U{0C}'
    || c == '\U{A0}' || c == '\U{1680}' || ('\U{2000}' <= c <= '\U{200A}')
    || c == '\U{2028}' || c == '\U{2029}' || c == '\U{202F}' || c == '\U{205F}'
    || c == '\U{3000}' || c == '\U{FEFF}'
  }

  /** Drops leading whitespace: the result is the suffix after the whitespace run. */
  function TrimStart(s: string): (r: string)
    ensures |r| <= |s| && r == s[|s| - |r|..]
    ensures forall k :: 0 <= k < |s| - |r| ==> IsWhitespace(s[k])
    ensures r == [] || !IsWhitespace(r[0])
    decreases |s|
  {
    if s != [] && IsWhitespace(s[0]) then TrimStart(s[1..]) else s
  }

  /** Drops trailing whitespace: the result is the prefix before the whitespace run. */
  function TrimEnd(s: string): (r: string)
    ensures |r| <= |s| && r == s[..|r|]
    ensures forall k :: |r| <= k < |s| ==> IsWhitespace(s[k])
    ensures r == [] || !IsWhitespace(r[|r| - 1])
    decreases |s|
  {
    if s != [] && IsWhitespace(s[|s| - 1]) then TrimEnd(s[..|s| - 1]) else s
  }

  /** `s.trim()`. */
  function Trim(s: string): string
  {
    TrimEnd(TrimStart(s))
  }

  predicate AllWhitespace(s: string)
  {
    forall k :: 0 <= k < |s| ==> IsWhitespace(s[k])
  }

  /** A string trims to the empty string exactly when it is all whitespace. */
  lemma TrimEmptyIff(s: string)
    ensures Trim(s) == [] <==> AllWhitespace(s)
  {
    var t := TrimStart(s);
    if t != [] {
      assert s[|s| - |t|] == t[0];
      assert TrimEnd(t) != [];
    }
  }

  /** Trimming keeps a contiguous run of the input and drops only whitespace around it. */
  lemma TrimIsInfix(s: string) returns (i: nat, j: nat)
    ensures i <= j <= |s| && Trim(s) == s[i..j]
    ensures AllWhitespace(s[..i]) && AllWhitespace(s[j..])
  {
    var t := TrimStart(s);
    i := |s| - |t|;
    var r := TrimEnd(t);
    j := i + |r|;
    assert t[..|r|] == s[i..j];
    LeadingRunIsWhitespace(s);
    TrailingRunIsWhitespace(t);
    assert s[j..] == t[|r|..];
  }

  lemma LeadingRunIsWhitespace(s: string)
    ensures AllWhitespace(s[..|s| - |TrimStart(s)|])
  {
    var n := |s| - |TrimStart(s)|;
    forall k | 0 <= k < n
      ensures IsWhitespace(s[..n][k])
    {
      assert s[..n][k] == s[k];
    }
  }

  lemma TrailingRunIsWhitespace(t: string)
    ensures AllWhitespace(t[|TrimEnd(t)|..])
  {
    var n := |TrimEnd(t)|;
    forall k | 0 <= k < |t| - n
      ensures IsWhitespace(t[n..][k])
    {
      assert t[n..][k] == t[n + k];
    }
  }

  /** Trimming twice trims nothing more. */
  lemma TrimIdempotent(s: string)
    ensures Trim(Trim(s)) == Trim(s)
  {
    var r := Trim(s);
    if r != [] {
      assert r[0] == TrimStart(s)[0];
      assert TrimStart(r) == r;
    }
  }

  // ---------------------------------------------------------------------
  // String.prototype.split with a one-character separator, and its inverse
  // ---------------------------------------------------------------------

  /** `s.split(sep)` for a one-character `sep`: never empty, no piece contains `sep`. */
  function Split(s: string, sep: char): (parts: seq<string>)
    ensures |parts| >= 1
    ensures forall i :: 0 <= i < |parts| ==> sep !in parts[i]
    decreases |s|
  {
    if s == [] then [""]
    else
      var rest := Split(s[1..], sep);
      if s[0] == sep then [""] + rest
      else [[s[0]] + rest[0]] + rest[1..]
  }

  /** `parts.join(sep)`. */
  function Join(parts: seq<string>, sep: char): string
    requires |parts| >= 1
    decreases |parts|
  {
    if |parts| == 1 then parts[0] else parts[0] + [sep] + Join(parts[1..], sep)
  }

  /** Splitting and joining again gives back the input. */
  lemma {:induction false} JoinSplit(s: string, sep: char)
    ensures Join(Split(s, sep), sep) == s
    decreases |s|
  {
    if s != [] {
      JoinSplit(s[1..], sep);
      var rest := Split(s[1..], sep);
      if s[0] != sep {
        if |rest| == 1 {
          assert Split(s, sep) == [[s[0]] + rest[0]];
        } else {
          assert Split(s, sep)[1..] == rest[1..];
          assert Join(rest, sep) == rest[0] + [sep] + Join(rest[1..], sep);
        }
      }
    }
  }

  /** A string without the separator splits into itself alone. */
  lemma {:induction false} SplitNoSep(p: string, sep: char)
    requires sep !in p
    ensures Split(p, sep) == [p]
    decreases |p|
  {
    if p != [] {
      assert sep !in p[1..] by { assert forall c :: c in p[1..] ==> c in p; }
      SplitNoSep(p[1..], sep);
      assert [p[0]] + p[1..] == p;
    }
  }

  /** A separator-free piece followed by the separator splits off as the first piece. */
  lemma {:induction false} SplitPrefix(p: string, t: string, sep: char)
    requires sep !in p
    ensures Split(p + [sep] + t, sep) == [p] + Split(t, sep)
    decreases |p|
  {
    var s := p + [sep] + t;
    if p == [] {
      assert s == [sep] + t;
      assert s[1..] == t;
    } else {
      assert sep !in p[1..] by { assert forall c :: c in p[1..] ==> c in p; }
      SplitPrefix(p[1..], t, sep);
      assert s[1..] == p[1..] + [sep] + t;
      assert [p[0]] + p[1..] == p;
    }
  }

  /** Joining pieces free of the separator and splitting again gives back the pieces. */
  lemma {:induction false} SplitJoin(parts: seq<string>, sep: char)
    requires |parts| >= 1
    requires forall i :: 0 <= i < |parts| ==> sep !in parts[i]
    ensures Split(Join(parts, sep), sep) == parts
    decreases |parts|
  {
    if |parts| == 1 {
      SplitNoSep(parts[0], sep);
    } else {
      SplitJoin(parts[1..], sep);
      SplitPrefix(parts[0], Join(parts[1..], sep), sep);
      assert [parts[0]] + parts[1..] == parts;
    }
  }

  /** Two texts that both read "a piece free of `c`, then `c`, then the rest" agree on the piece and the rest. */
  lemma SplitAtFirst<T>(a1: seq<T>, t1: seq<T>, a2: seq<T>, t2: seq<T>, c: T)
    requires c !in a1 && c !in a2
    requires a1 + [c] + t1 == a2 + [c] + t2
    ensures a1 == a2 && t1 == t2
  {
    var s := a1 + [c] + t1;
    var k := if |a1| <= |a2| then |a1| else |a2|;
    assert forall i :: 0 <= i < |a1| ==> a1[i] != c;
    assert forall i :: 0 <= i < |a2| ==> a2[i] != c;
    assert s[k] == (a2 + [c] + t2)[k];
    assert |a1| == |a2|;
    assert a1 == s[..|a1|];
    assert a2 == s[..|a2|];
    assert t1 == s[|a1| + 1..];
    assert t2 == s[|a2| + 1..];
  }

  // ---------------------------------------------------------------------
  // String.prototype.includes
  // ---------------------------------------------------------------------

  predicate OccursAt(s: string, sub: string, i: int)
  {
    0 <= i && i + |sub| <= |s| && s[i..i + |sub|] == sub
  }

  /** `s.includes(sub)`: `sub` occurs somewhere in `s`. */
  function Contains(s: string, sub: string): (b: bool)
    ensures b <==> exists i :: OccursAt(s, sub, i)
    decreases |s|
  {
    if |sub| > |s| then false
    else if s[..|sub|] == sub then
      assert OccursAt(s, sub, 0);
      true
    else
      var b := Contains(s[1..], sub);
      assert b ==> exists i :: OccursAt(s, sub, i) by {
        if b {
          var i :| OccursAt(s[1..], sub, i);
          assert s[i + 1..i + 1 + |sub|] == s[1..][i..i + |sub|];
          assert OccursAt(s, sub, i + 1);
        }
      }
      assert (exists i :: OccursAt(s, sub, i)) ==> b by {
        if exists i :: OccursAt(s, sub, i) {
          var i :| OccursAt(s, sub, i);
          assert i != 0;
          assert s[1..][i - 1..i - 1 + |sub|] == s[i..i + |sub|];
          assert OccursAt(s[1..], sub, i - 1);
        }
      }
      b
  }

  // ---------------------------------------------------------------------
  // Array.prototype.filter
  // ---------------------------------------------------------------------

  /** `a` is `b` with some elements dropped, order kept. */
  predicate IsSubsequence<T(==)>(a: seq<T>, b: seq<T>)
    decreases |b|
  {
    if a == [] then true
    else if b == [] then false
    else (a[0] == b[0] && IsSubsequence(a[1..], b[1..])) || IsSubsequence(a, b[1..])
  }

  /** `s.filter(p)`: every kept element passes, and each passing element is kept as often as it occurs. */
  function Filter<T(!new)>(s: seq<T>, p: T -> bool): (r: seq<T>)
    ensures |r| <= |s|
    ensures forall i :: 0 <= i < |r| ==> p(r[i])
    ensures forall x :: multiset(r)[x] == if p(x) then multiset(s)[x] else 0
    decreases |s|
  {
    if s == [] then []
    else
      var rest := Filter(s[1..], p);
      assert s == [s[0]] + s[1..];
      if p(s[0]) then [s[0]] + rest else rest
  }

  /** Filtering keeps the surviving elements in their original order. */
  lemma {:induction false} FilterIsSubsequence<T(!new)>(s: seq<T>, p: T -> bool)
    ensures IsSubsequence(Filter(s, p), s)
    decreases |s|
  {
    if s != [] {
      FilterIsSubsequence(s[1..], p);
      var rest := Filter(s[1..], p);
      if p(s[0]) {
        assert ([s[0]] + rest)[1..] == rest;
      } else if rest != [] {
        assert IsSubsequence(rest, s[1..]);
      }
    }
  }

  /** When every element passes, filtering changes nothing. */
  lemma {:induction false} FilterAllPass<T(!new)>(s: seq<T>, p: T -> bool)
    requires forall i :: 0 <= i < |s| ==> p(s[i])
    ensures Filter(s, p) == s
    decreases |s|
  {
    if s != [] {
      FilterAllPass(s[1..], p);
      assert [s[0]] + s[1..] == s;
    }
  }
}

=== FILE: login.dfy ===
/**
 * The login page: takes the access token from either response shape,
 * decodes the payload segment of the JWS compact serialization (section 7.1
 * of RFC 7515), and stores the token with a user record built from its claims.
 *
 * `atob` and `JSON.parse` are abstract: each yields a value or throws.
 */
module Login {
  import opened JsCore
  import opened Browser

  /** The login response: `access_token`, and `token?.access_token` of the nested shape. */
  datatype LoginData = LoginData(accessToken: Option<string>, nestedAccessToken: Option<string>)

  /** `data.access_token || data.token?.access_token`. */
  function ExtractToken(data: LoginData): (t: Option<string>)
    ensures Truthy(data.accessToken) ==> t == data.accessToken
    ensures !Truthy(data.accessToken) ==> t == data.nestedAccessToken
    ensures Truthy(t) <==> Truthy(data.accessToken) || Truthy(data.nestedAccessToken)
  {
    Or(data.accessToken, data.nestedAccessToken)
  }

  /** `token` is `head`, ".", `seg`, then either nothing or a "." and whatever follows, with no "." in `head`. */
  predicate SecondSegment(token: string, head: string, seg: string, rest: string)
  {
    '.' !in head && token == head + "." + seg + rest && (rest == "" || rest[0] == '.')
  }

  /** `token.split(".")[1]`: undefined when the token has no ".". */
  function PayloadSegment(token: string): (seg: Option<string>)
    ensures seg.Some? <==> '.' in token
    ensures seg.Some? ==> '.' !in seg.value
    ensures seg.Some? ==> exists head, rest :: SecondSegment(token, head, seg.value, rest)
  {
    var parts := Split(token, '.');
    JoinSplit(token, '.');
    if |parts| >= 2 then
      var rest := if |parts| == 2 then "" else "." + Join(parts[2..], '.');
      JoinSecondPiece(parts);
      assert SecondSegment(token, parts[0], parts[1], rest);
      Some(parts[1])
    else
      assert token == parts[0];
      None
  }

  /** A join of two or more pieces is the first piece, ".", the second piece, then nothing or "." and the others. */
  lemma JoinSecondPiece(parts: seq<string>)
    requires |parts| >= 2
    ensures Join(parts, '.') == parts[0] + "." + parts[1] + (if |parts| == 2 then "" else "." + Join(parts[2..], '.'))
  {
    var tail := parts[1..];
    var rest := if |parts| == 2 then "" else "." + Join(parts[2..], '.');
    assert Join(parts, '.') == parts[0] + "." + Join(tail, '.');
    assert Join(tail, '.') == parts[1] + rest by {
      if |parts| > 2 {
        assert tail[1..] == parts[2..];
      }
    }
    AppendAssoc(parts[0] + ".", parts[1], rest);
  }

  /** Concatenation regroups freely. */
  lemma AppendAssoc(a: string, b: string, c: string)
    ensures a + (b + c) == a + b + c
  {
  }

  /** For a compact serialization `header.payload.signature` the segment read is the payload. */
  lemma PayloadOfCompact(header: string, payload: string, signature: string)
    requires '.' !in header && '.' !in payload && '.' !in signature
    ensures PayloadSegment(header + "." + payload + "." + signature) == Some(payload)
  {
    var parts := [header, payload, signature];
    assert Join(parts, '.') == header + "." + payload + "." + signature by {
      assert Join(parts[1..], '.') == payload + "." + signature by {
        assert parts[1..][1..] == [signature];
      }
    }
    SplitJoin(parts, '.');
  }

  /** The claims the page reads from the decoded payload. */
  datatype Claims = Claims(sub: Option<string>, email: Option<string>, role: Option<string>)

  /**
   * `decodeToken`: `JSON.parse(atob(segment))`, null when either throws. A
   * missing segment is passed to `atob` as the text "undefined". A parsed
   * value that is falsy (`null`, `0`, `""`, `false`) is `Resolved(None)`.
   */
  function DecodeToken(token: string, atob: string -> Outcome<string>,
                       parseJson: string -> Outcome<Option<Claims>>): (r: Option<Claims>)
    ensures atob(Interpolate(PayloadSegment(token))).Rejected? ==> r.None?
    ensures atob(Interpolate(PayloadSegment(token))).Resolved? ==>
      match parseJson(atob(Interpolate(PayloadSegment(token))).value)
      case Rejected(_) => r.None?
      case Resolved(value) => r == value
    ensures r.Some? ==>
      atob(Interpolate(PayloadSegment(token))).Resolved?
      && parseJson(atob(Interpolate(PayloadSegment(token))).value) == Resolved(r)
  {
    match atob(Interpolate(PayloadSegment(token)))
    case Rejected(_) => None
    case Resolved(text) =>
      match parseJson(text)
      case Rejected(_) => None
      case Resolved(value) => value
  }

  /**
   * A compact token decodes from its payload alone: the header and the
   * signature play no part, and a payload `atob` refuses decodes to nothing.
   */
  lemma DecodeCompact(header: string, payload: string, signature: string, atob: string -> Outcome<string>,
                      parseJson: string -> Outcome<Option<Claims>>)
    requires '.' !in header && '.' !in payload && '.' !in signature
    ensures atob(payload).Rejected? ==>
      DecodeToken(header + "." + payload + "." + signature, atob, parseJson).None?
    ensures atob(payload).Resolved? && parseJson(atob(payload).value).Resolved? ==>
      DecodeToken(header + "." + payload + "." + signature, atob, parseJson) == parseJson(atob(payload).value).value
  {
    PayloadOfCompact(header, payload, signature);
  }

  /** The user record stored after login: `{ id: sub, email, role }` and nothing else. */
  function StoredUser(c: Claims): (u: UserRecord)
    ensures u.id == c.sub && u.email == c.email && u.role == c.role
    ensures u.name.None? && u.createdAt.None?
  {
    UserRecord(c.sub, None, c.email, c.role, None)
  }

  const NoToken := "Token não retornado pelo servidor."
  const DecodeFailed := "Falha ao decodificar o token."
  const LoginFallback := "Erro ao fazer login."

  class LoginPage {
    var error: string
    var loading: bool

    constructor ()
      ensures error == "" && !loading
    {
      error := "";
      loading := false;
    }

    /**
     * `handleSubmit` with the login call settling as `login`. The page
     * writes storage only on success, and then it holds the token and the
     * serialized user; on a failure the page itself writes nothing (what the
     * API client does on a 401 while the call settles is not part of `login`).
     */
    method HandleSubmit(w: Window, login: Outcome<LoginData>, atob: string -> Outcome<string>,
                        parseJson: string -> Outcome<Option<Claims>>, stringify: UserRecord -> string)
      modifies this, w
      ensures !loading
      ensures login.Rejected? ==>
        error == MessageOr(login.message, LoginFallback)
        && w.storage == old(w.storage) && w.trace == old(w.trace) + [Request(Post, "/auth/login")]
      ensures login.Resolved? && !Truthy(ExtractToken(login.value)) ==>
        error == NoToken && w.storage == old(w.storage) && w.trace == old(w.trace) + [Request(Post, "/auth/login")]
      ensures (login.Resolved? && Truthy(ExtractToken(login.value))
               && DecodeToken(ExtractToken(login.value).value, atob, parseJson).None?) ==>
        error == DecodeFailed && w.storage == old(w.storage) && w.trace == old(w.trace) + [Request(Post, "/auth/login")]
      ensures (login.Resolved? && Truthy(ExtractToken(login.value))
               && DecodeToken(ExtractToken(login.value).value, atob, parseJson).Some?) ==>
        var token := ExtractToken(login.value).value;
        var claims := DecodeToken(token, atob, parseJson).value;
        error == ""
        && w.storage == old(w.storage)[TokenKey := token][UserKey := stringify(StoredUser(claims))]
        && w.trace == old(w.trace) + [Request(Post, "/auth/login"), LocationAssign("/auctions")]
    {
      error := "";
      loading := true;
      w.Emit(Request(Post, "/auth/login"));
      match login {
        case Rejected(m) =>
          error := MessageOr(m, LoginFallback);
        case Resolved(data) =>
          var token := ExtractToken(data);
          if !Truthy(token) {
            error := NoToken;
          } else {
            var decoded := DecodeToken(token.value, atob, parseJson);
            if decoded.None? {
              error := DecodeFailed;
            } else {
              w.SetItem(TokenKey, token.value);
              w.SetItem(UserKey, stringify(StoredUser(decoded.value)));
              w.Emit(LocationAssign("/auctions"));
            }
          }
      }
      loading := false;
    }
  }
}

=== FILE: my_auctions.dfy ===
/**
 * "Meus Leilões": behind a session gate, fetches every auction and keeps the
 * ones whose `ownerId` is the stored user's id. Links use `_id` only.
 */
module MyAuctions {
  import opened JsCore
  import opened Browser
  import opened Countdown
  import opened AuctionCard
  import opened AuctionsPage

  /** `data.filter(a => a.ownerId === parsedUser.id)`. */
  function Owned(list: seq<Auction>, userId: Option<string>): (r: seq<Auction>)
    ensures forall i :: 0 <= i < |r| ==> r[i].ownerId == userId
    ensures forall a :: a in r <==> a in list && a.ownerId == userId
    ensures forall a: Auction :: a.ownerId == userId ==> multiset(r)[a] == multiset(list)[a]
  {
    var r := Filter(list, (a: Auction) => a.ownerId == userId);
    assert forall a :: a in r <==> multiset(r)[a] > 0;
    r
  }

  /** The owned auctions keep their order from the fetched list. */
  lemma OwnedIsSubsequence(list: seq<Auction>, userId: Option<string>)
    ensures IsSubsequence(Owned(list, userId), list)
  {
    FilterIsSubsequence(list, (a: Auction) => a.ownerId == userId);
  }

  /** A list that holds only the user's auctions is shown whole. */
  lemma OwnedAll(list: seq<Auction>, userId: Option<string>)
    requires forall i :: 0 <= i < |list| ==> list[i].ownerId == userId
    ensures Owned(list, userId) == list
  {
    FilterAllPass(list, (a: Auction) => a.ownerId == userId);
  }

  /** A row's remaining time, unclamped like the list page's: an "h" part exactly from one hour on. */
  function RowLabel(a: Auction, now: int): (s: string)
    ensures s == ListLabel(a.endTime - now)
    ensures 'h' in s <==> a.endTime - now >= MsPerHour
  {
    ListLabel(a.endTime - now)
  }

  /** `/auctions/${auction._id}`: no `id` fallback on this page. */
  function MyHref(a: Auction): (s: string)
    ensures a.mongoId.Some? ==> s == "/auctions/" + a.mongoId.value
    ensures a.mongoId.None? ==> s == "/auctions/undefined"
  {
    "/auctions/" + Interpolate(a.mongoId)
  }

  const LoginPath := "/auth/login"
  const MyErrorFallback := "Erro ao carregar leilões."
  const NoOwnAuctionsText := "Você ainda não criou nenhum leilão."
  /** The empty screen's prompt links here, labelled "Criar novo leilão". */
  const CreateAuctionPath := "/auctions/new"

  class Page {
    var auctions: seq<Auction>
    var loading: bool
    var error: string

    constructor ()
      ensures auctions == [] && loading && error == ""
    {
      auctions := [];
      loading := true;
      error := "";
    }

    function View(): (v: Screen<Auction>)
      reads this
      ensures v == LoadingScreen <==> loading
      ensures v.ErrorScreen? <==> !loading && error != ""
      ensures v.ErrorScreen? ==> v.text == error
      ensures v.EmptyScreen? ==> v.text == NoOwnAuctionsText && auctions == []
      ensures v.ListScreen? ==> v.items == auctions && auctions != []
    {
      if loading then LoadingScreen
      else if error != "" then ErrorScreen(error)
      else if |auctions| == 0 then EmptyScreen(NoOwnAuctionsText)
      else ListScreen(auctions)
    }

    /**
     * `fetchMyAuctions`. Without a truthy token and user the page goes to the
     * login route and fetches nothing. A stored user that does not parse is
     * an error, again with no fetch. Otherwise the list is fetched and
     * filtered by owner. Loading ends on every path.
     */
    method FetchMyAuctions(w: Window, parse: Parser<UserRecord>, listed: Outcome<seq<Auction>>)
      modifies this, w
      ensures w.storage == old(w.storage) && !loading
      ensures !Truthy(GetItem(w.storage, TokenKey)) || !Truthy(GetItem(w.storage, UserKey)) ==>
        w.trace == old(w.trace) + [RouterPush(LoginPath)]
        && auctions == old(auctions) && error == old(error)
      ensures Truthy(GetItem(w.storage, TokenKey)) && Truthy(GetItem(w.storage, UserKey)) ==>
        match parse(w.storage[UserKey])
        case Rejected(m) =>
          w.trace == old(w.trace) && auctions == old(auctions) && error == MessageOr(m, MyErrorFallback)
        case Resolved(user) =>
          w.trace == old(w.trace) + [Request(Get, "/auctions")]
          && (listed.Resolved? ==> auctions == Owned(listed.value, user.id) && error == old(error))
          && (listed.Rejected? ==> auctions == old(auctions) && error == MessageOr(listed.message, MyErrorFallback))
    {
      var token := GetItem(w.storage, TokenKey);
      var user := GetItem(w.storage, UserKey);
      if !Truthy(token) || !Truthy(user) {
        w.Emit(RouterPush(LoginPath));
        loading := false;
        return;
      }
      match parse(user.value) {
        case Rejected(m) =>
          error := MessageOr(m, MyErrorFallback);
        case Resolved(parsedUser) =>
          w.Emit(Request(Get, "/auctions"));
          match listed {
            case Resolved(data) =>
              auctions := Owned(data, parsedUser.id);
            case Rejected(m) =>
              error := MessageOr(m, MyErrorFallback);
          }
      }
      loading := false;
    }
  }
}

=== FILE: my_bids.dfy ===
/**
 * "Meus Lances": behind a session gate, fetches the user's bids; every
 * failure shows one of three fixed messages.
 */
module MyBids {
  import opened Browser

  /** A bid as the page reads it: its id and the auction it was placed on. */
  datatype Bid = Bid(id: Option<string>, auctionId: Option<string>, auctionTitle: Option<string>,
                     auctionStatus: Option<string>)

  /** What `api.bids.byUser` resolves to: an array, or any other JSON value. */
  datatype BidsData = BidArray(bids: seq<Bid>) | NotArray

  const NotAuthenticated := "Usuário não autenticado."
  const NotAList := "Não foi possível carregar seus lances."
  const LoadFailed := "Erro ao carregar seus lances."
  const NoBidsText := "Você ainda não fez nenhum lance."

  /** The status line of a bid: "Ativo" exactly for an OPEN auction. */
  function StatusLabel(status: Option<string>): (s: string)
    ensures s == "Ativo" <==> status == Some("OPEN")
    ensures s == "Ativo" || s == "Encerrado"
  {
    if status == Some("OPEN") then "Ativo" else "Encerrado"
  }

  /** `/bids/user/${user.id}`. */
  function BidsEndpoint(userId: Option<string>): (s: string)
    ensures userId.Some? ==> s == "/bids/user/" + userId.value
    ensures userId.None? ==> s == "/bids/user/undefined"
  {
    "/bids/user/" + Interpolate(userId)
  }

  class Page {
    var bids: seq<Bid>
    var loading: bool
    var error: Option<string>

    constructor ()
      ensures bids == [] && loading && error.None?
    {
      bids := [];
      loading := true;
      error := None;
    }

    function View(): (v: Screen<Bid>)
      reads this
      ensures v == LoadingScreen <==> loading
      ensures v.ErrorScreen? <==> !loading && Truthy(error)
      ensures v.ErrorScreen? ==> v.text == error.value
      ensures v.EmptyScreen? ==> v.text == NoBidsText && bids == []
      ensures v.ListScreen? ==> v.items == bids && bids != []
    {
      if loading then LoadingScreen
      else if Truthy(error) then ErrorScreen(error.value)
      else if |bids| == 0 then EmptyScreen(NoBidsText)
      else ListScreen(bids)
    }

    /**
     * `fetchBids`. Without a token and a stored user: a fixed error and no
     * request. A stored user that does not parse, or a call that throws, gives
     * another fixed message whatever the thrown text was. A response that is
     * not an array gives a third.
     */
    method FetchBids(w: Window, parse: Parser<UserRecord>, response: Outcome<BidsData>)
      modifies this, w
      ensures !loading && w.storage == old(w.storage)
      ensures !Truthy(GetItem(w.storage, TokenKey)) || !Truthy(GetItem(w.storage, UserKey)) ==>
        error == Some(NotAuthenticated) && bids == old(bids) && w.trace == old(w.trace)
      ensures Truthy(GetItem(w.storage, TokenKey)) && Truthy(GetItem(w.storage, UserKey)) ==>
        match parse(w.storage[UserKey])
        case Rejected(_) => error == Some(LoadFailed) && bids == old(bids) && w.trace == old(w.trace)
        case Resolved(user) =>
          w.trace == old(w.trace) + [Request(Get, BidsEndpoint(user.id))]
          && match response {
            case Rejected(_) => error == Some(LoadFailed) && bids == old(bids)
            case Resolved(NotArray) => error == Some(NotAList) && bids == old(bids)
            case Resolved(BidArray(b)) => bids == b && error == old(error)
          }
    {
      var token := GetItem(w.storage, TokenKey);
      var storedUser := GetItem(w.storage, UserKey);
      if !Truthy(token) || !Truthy(storedUser) {
        error := Some(NotAuthenticated);
        loading := false;
        return;
      }
      match parse(storedUser.value) {
        case Rejected(_) =>
          error := Some(LoadFailed);
        case Resolved(user) =>
          w.Emit(Request(Get, BidsEndpoint(user.id)));
          match response {
            case Rejected(_) => error := Some(LoadFailed);
            case Resolved(NotArray) => error := Some(NotAList);
            case Resolved(BidArray(b)) => bids := b;
          }
      }
      loading := false;
    }
  }

  /** Whatever the server's error text, a failed first load shows the same fixed message. */
  method FailedLoad(w: Window, parse: Parser<UserRecord>, serverMessage: string) returns (v: Screen<Bid>)
    requires Truthy(GetItem(w.storage, TokenKey)) && Truthy(GetItem(w.storage, UserKey))
    requires parse(w.storage[UserKey]).Resolved?
    modifies w
    ensures v == ErrorScreen(LoadFailed)
  {
    var page := new Page();
    page.FetchBids(w, parse, Rejected(serverMessage));
    v := page.View();
  }
}

=== FILE: navbar.dfy ===
/**
 * The navigation bar: which links it shows for the stored token and role,
 * which one is highlighted, and its logout.
 */
module Navbar {
  import opened Browser

  datatype Link = Link(href: string, caption: string)

  const PublicLinks: seq<Link> := [Link("/", "Início"), Link("/auctions", "Leilões")]
  const PrivateLinks: seq<Link> := [Link("/profile", "Perfil"), Link("/notifications", "Notificações")]
  const SellerOnlyLinks: seq<Link> := [Link("/profile/my-auctions", "Meus Leilões"), Link("/auctions/new", "Criar Leilão")]
  const BuyerOnlyLinks: seq<Link> := [Link("/profile/my-bids", "Meus Lances")]

  /** `user?.role`. */
  function RoleOf(user: Option<UserRecord>): Option<string>
  {
    if user.Some? then user.value.role else None
  }

  /** The hrefs of `links`, in order. */
  function Hrefs(links: seq<Link>): (hs: seq<string>)
    ensures |hs| == |links| && forall i :: 0 <= i < |links| ==> hs[i] == links[i].href
  {
    if links == [] then [] else [links[0].href] + Hrefs(links[1..])
  }

  /** `allLinks`: public, then private with a token, then the seller's, then the buyer's. */
  function AllLinks(token: Option<string>, user: Option<UserRecord>): (r: seq<Link>)
    ensures |r| == 2 + (if Truthy(token) then 2 else 0)
      + (if RoleOf(user) == Some("SELLER") then 2 else 0) + (if RoleOf(user) == Some("BUYER") then 1 else 0)
    ensures r[..2] == PublicLinks
    ensures Truthy(token) ==> r[2..4] == PrivateLinks
    ensures RoleOf(user) == Some("SELLER") ==> r[|r| - 2..] == SellerOnlyLinks
    ensures RoleOf(user) == Some("BUYER") ==> r[|r| - 1..] == BuyerOnlyLinks
  {
    var role := RoleOf(user);
    PublicLinks + (if Truthy(token) then PrivateLinks else [])
    + (if role == Some("SELLER") then SellerOnlyLinks else [])
    + (if role == Some("BUYER") then BuyerOnlyLinks else [])
  }

  /** The hrefs shown, group by group. */
  lemma HrefsOfAllLinks(token: Option<string>, user: Option<UserRecord>)
    ensures Hrefs(AllLinks(token, user)) == ["/", "/auctions"]
      + (if Truthy(token) then ["/profile", "/notifications"] else [])
      + (if RoleOf(user) == Some("SELLER") then ["/profile/my-auctions", "/auctions/new"] else [])
      + (if RoleOf(user) == Some("BUYER") then ["/profile/my-bids"] else [])
  {
    var r := AllLinks(token, user);
    var hs := Hrefs(r);
    var expected := ["/", "/auctions"]
      + (if Truthy(token) then ["/profile", "/notifications"] else [])
      + (if RoleOf(user) == Some("SELLER") then ["/profile/my-auctions", "/auctions/new"] else [])
      + (if RoleOf(user) == Some("BUYER") then ["/profile/my-bids"] else []);
    assert |hs| == |expected|;
    forall i | 0 <= i < |hs| ensures hs[i] == expected[i] {
    }
  }

  /** The public links are always shown. */
  lemma PublicLinksAlways(token: Option<string>, user: Option<UserRecord>)
    ensures "/" in Hrefs(AllLinks(token, user)) && "/auctions" in Hrefs(AllLinks(token, user))
  {
    HrefsOfAllLinks(token, user);
  }

  /** The private links are shown exactly when a token is stored. */
  lemma PrivateLinksIffToken(token: Option<string>, user: Option<UserRecord>)
    ensures var hs := Hrefs(AllLinks(token, user));
      && ("/profile" in hs <==> Truthy(token))
      && ("/notifications" in hs <==> Truthy(token))
  {
    HrefsOfAllLinks(token, user);
    var sell: seq<string> := if RoleOf(user) == Some("SELLER") then ["/profile/my-auctions", "/auctions/new"] else [];
    var buy: seq<string> := if RoleOf(user) == Some("BUYER") then ["/profile/my-bids"] else [];
    assert "/profile" !in sell + buy && "/notifications" !in sell + buy;
  }

  /** The seller's links are shown exactly for the SELLER role, with or without a token. */
  lemma SellerLinksIffSeller(token: Option<string>, user: Option<UserRecord>)
    ensures var hs := Hrefs(AllLinks(token, user));
      && ("/profile/my-auctions" in hs <==> RoleOf(user) == Some("SELLER"))
      && ("/auctions/new" in hs <==> RoleOf(user) == Some("SELLER"))
  {
    HrefsOfAllLinks(token, user);
    var priv: seq<string> := if Truthy(token) then ["/profile", "/notifications"] else [];
    var buy: seq<string> := if RoleOf(user) == Some("BUYER") then ["/profile/my-bids"] else [];
    assert "/profile/my-auctions" !in ["/", "/auctions"] + priv && "/auctions/new" !in ["/", "/auctions"] + priv;
    assert "/profile/my-auctions" !in buy && "/auctions/new" !in buy;
  }

  /** The buyer's link is shown exactly for the BUYER role; an ADMIN gets neither group. */
  lemma BuyerLinksIffBuyer(token: Option<string>, user: Option<UserRecord>)
    ensures "/profile/my-bids" in Hrefs(AllLinks(token, user)) <==> RoleOf(user) == Some("BUYER")
  {
    HrefsOfAllLinks(token, user);
    var priv: seq<string> := if Truthy(token) then ["/profile", "/notifications"] else [];
    var sell: seq<string> := if RoleOf(user) == Some("SELLER") then ["/profile/my-auctions", "/auctions/new"] else [];
    assert "/profile/my-bids" !in ["/", "/auctions"] + priv + sell;
  }

  /** An ADMIN sees the public links and, with a token, the private ones: nothing else. */
  lemma AdminLinks(token: Option<string>, user: Option<UserRecord>)
    requires RoleOf(user) == Some("ADMIN")
    ensures AllLinks(token, user) == PublicLinks + (if Truthy(token) then PrivateLinks else [])
  {
  }

  /** A link is highlighted exactly when the current path is its href. */
  function IsActive(pathname: string, link: Link): (b: bool)
    ensures b <==> pathname == link.href
  {
    pathname == link.href
  }

  /** No href appears twice. */
  predicate Distinct(hs: seq<string>)
  {
    forall i, j :: 0 <= i < j < |hs| ==> hs[i] != hs[j]
  }

  /** Two lists without repeats and without a common element join into one without repeats. */
  lemma DistinctConcat(a: seq<string>, b: seq<string>)
    requires Distinct(a) && Distinct(b)
    requires forall x :: x in a ==> x !in b
    ensures Distinct(a + b)
  {
    forall i, j | 0 <= i < j < |a + b| ensures (a + b)[i] != (a + b)[j] {
      if j >= |a| {
        assert (a + b)[j] == b[j - |a|];
        if i < |a| {
          assert (a + b)[i] in a;
        } else {
          assert (a + b)[i] == b[i - |a|];
        }
      }
    }
  }

  /** Whatever the token and role, the bar never shows two links to the same place. */
  lemma AllHrefsDistinct(token: Option<string>, user: Option<UserRecord>)
    ensures Distinct(Hrefs(AllLinks(token, user)))
  {
    HrefsOfAllLinks(token, user);
    var pub: seq<string> := ["/", "/auctions"];
    var priv: seq<string> := if Truthy(token) then ["/profile", "/notifications"] else [];
    var sell: seq<string> := if RoleOf(user) == Some("SELLER") then ["/profile/my-auctions", "/auctions/new"] else [];
    var buy: seq<string> := if RoleOf(user) == Some("BUYER") then ["/profile/my-bids"] else [];
    assert Distinct(pub) && Distinct(priv) && Distinct(sell) && Distinct(buy);
    DistinctConcat(pub, priv);
    assert forall x :: x in pub + priv ==> x !in sell;
    DistinctConcat(pub + priv, sell);
    assert forall x :: x in pub + priv + sell ==> x !in buy;
    DistinctConcat(pub + priv + sell, buy);
  }

  /** At most one link of the bar is highlighted, and one is exactly when the path is among the hrefs shown. */
  lemma AtMostOneActive(pathname: string, token: Option<string>, user: Option<UserRecord>)
    ensures var links := AllLinks(token, user);
      forall i, j :: 0 <= i < j < |links| ==> !(IsActive(pathname, links[i]) && IsActive(pathname, links[j]))
    ensures var links := AllLinks(token, user);
      (exists i :: 0 <= i < |links| && IsActive(pathname, links[i])) <==> pathname in Hrefs(links)
  {
    var links := AllLinks(token, user);
    AllHrefsDistinct(token, user);
    var hs := Hrefs(links);
    if pathname in hs {
      var k :| 0 <= k < |hs| && hs[k] == pathname;
      assert IsActive(pathname, links[k]);
    }
  }

  class NavbarState {
    var token: Option<string>
    var user: Option<UserRecord>

    constructor ()
      ensures token.None? && user.None?
    {
      token := None;
      user := None;
    }

    function Links(): seq<Link>
      reads this
    {
      AllLinks(token, user)
    }

    /**
     * The mount effect: the token is copied from storage, then a truthy
     * stored user is parsed. A parse that throws escapes the effect, after
     * the token was already set; `thrown` carries its message.
     */
    method Load(w: Window, parse: Parser<UserRecord>) returns (thrown: Option<string>)
      modifies this
      ensures token == GetItem(w.storage, TokenKey)
      ensures !Truthy(GetItem(w.storage, UserKey)) ==> user.None? && thrown.None?
      ensures Truthy(GetItem(w.storage, UserKey)) ==>
        match parse(w.storage[UserKey])
        case Resolved(u) => user == Some(u) && thrown.None?
        case Rejected(m) => user == old(user) && thrown == Some(m)
    {
      thrown := None;
      token := GetItem(w.storage, TokenKey);
      var saved := GetItem(w.storage, UserKey);
      if !Truthy(saved) {
        user := None;
        return;
      }
      match parse(saved.value) {
        case Resolved(u) => user := Some(u);
        case Rejected(m) => thrown := Some(m);
      }
    }

    /** `handleLogout`: both session keys removed, both state fields cleared, then to "/login". */
    method HandleLogout(w: Window)
      modifies this, w
      ensures w.storage == ClearSession(old(w.storage))
      ensures w.trace == old(w.trace) + [RouterPush("/login")]
      ensures token.None? && user.None? && Links() == PublicLinks
    {
      w.EndSession();
      token := None;
      user := None;
      w.Emit(RouterPush("/login"));
    }
  }
}

=== FILE: notification_feed.dfy ===
/**
 * The `useNotifications` hook: once mounted with a socket and a user id it
 * joins the user's room, registers a `notification` listener that prepends
 * each incoming notification to its list, and removes that listener again
 * on cleanup.
 */
module NotificationFeed {
  import opened Browser
  import opened NotificationMerge
  import opened JsCore

  /** `listeners` without any occurrence of `h`. */
  function Without(listeners: seq<nat>, h: nat): (r: seq<nat>)
    ensures h !in r
    ensures forall x :: x in r <==> x in listeners && x != h
    ensures multiset(r) == multiset(listeners)[h := 0]
  {
    var r := Filter(listeners, (x: nat) => x != h);
    assert forall x :: x in r <==> multiset(r)[x] > 0;
    r
  }

  /** Removing a handler keeps the other listeners in their registration order. */
  lemma WithoutKeepsOrder(listeners: seq<nat>, h: nat)
    ensures IsSubsequence(Without(listeners, h), listeners)
  {
    FilterIsSubsequence(listeners, (x: nat) => x != h);
  }

  /** The shared socket, as far as the hook touches it. */
  class Socket {
    /** Rooms this client asked to join, in order (`socket.emit("join", room)`). */
    var joins: seq<string>
    /** Listeners registered for the `notification` event, by identity, in registration order. */
    var listeners: seq<nat>
    /** Each registered closure is a fresh object: the next identity never used before. */
    var nextHandler: nat

    ghost predicate Valid()
      reads this
    {
      forall h :: h in listeners ==> h < nextHandler
    }

    constructor ()
      ensures Valid() && joins == [] && listeners == []
    {
      joins := [];
      listeners := [];
      nextHandler := 0;
    }

    method Join(room: string)
      requires Valid()
      modifies this
      ensures Valid()
      ensures joins == old(joins) + [room]
      ensures listeners == old(listeners) && nextHandler == old(nextHandler)
    {
      joins := joins + [room];
    }

    /** `socket.on("notification", fn)` for a new closure `fn`. */
    method On() returns (h: nat)
      requires Valid()
      modifies this
      ensures Valid()
      ensures h !in old(listeners) && h == old(nextHandler)
      ensures listeners == old(listeners) + [h] && joins == old(joins)
    {
      h := nextHandler;
      listeners := listeners + [h];
      nextHandler := nextHandler + 1;
    }

    /** `socket.off("notification", fn)`: drops `fn`, leaves every other listener. */
    method Off(h: nat)
      requires Valid()
      modifies this
      ensures Valid()
      ensures listeners == Without(old(listeners), h)
      ensures joins == old(joins) && nextHandler == old(nextHandler)
    {
      listeners := Without(listeners, h);
    }
  }

  /** One mounted instance of the hook. */
  class Feed {
    /** The `notifications` state, newest first. */
    var notifications: seq<Notification>
    /** What `useSocket()` returned (null when there is no socket). */
    const socket: Socket?
    /** The listener this instance registered, while its effect is active. */
    var handler: Option<nat>

    ghost predicate Valid()
      reads this, socket
    {
      (socket != null ==> socket.Valid())
      && (handler.Some? ==> socket != null && handler.value in socket.listeners)
    }

    constructor (socket: Socket?)
      requires socket != null ==> socket.Valid()
      ensures Valid() && this.socket == socket
      ensures notifications == [] && handler.None?
    {
      this.socket := socket;
      notifications := [];
      handler := None;
    }

    /** The effect body: guard on socket and user id, join the room, register the listener. */
    method Subscribe(userId: Option<string>)
      requires Valid() && handler.None?
      modifies this, socket
      ensures Valid() && notifications == old(notifications)
      ensures socket == null || !Truthy(userId) ==>
        handler.None? && (socket != null ==> socket.joins == old(socket.joins) && socket.listeners == old(socket.listeners))
      ensures socket != null && Truthy(userId) ==>
        socket.joins == old(socket.joins) + [userId.value]
        && handler.Some? && handler.value !in old(socket.listeners)
        && socket.listeners == old(socket.listeners) + [handler.value]
    {
      if socket == null || !Truthy(userId) {
        return;
      }
      socket.Join(userId.value);
      var h := socket.On();
      handler := Some(h);
    }

    /** The socket delivering one `notification` event; only a registered listener runs. */
    method Receive(n: Notification)
      requires Valid()
      modifies this
      ensures Valid() && handler == old(handler)
      ensures handler.Some? ==> notifications == [n] + old(notifications)
      ensures handler.None? ==> notifications == old(notifications)
    {
      if handler.Some? {
        notifications := [n] + notifications;
      }
    }

    /** The effect's cleanup: removes this instance's listener and no other. */
    method Cleanup()
      requires Valid()
      modifies this, socket
      ensures Valid() && handler.None? && notifications == old(notifications)
      ensures old(handler).Some? ==>
        socket.listeners == Without(old(socket.listeners), old(handler).value)
        && socket.joins == old(socket.joins)
      ensures old(handler).None? && socket != null ==> socket.listeners == old(socket.listeners)
    {
      if handler.Some? {
        socket.Off(handler.value);
        handler := None;
      }
    }
  }

  /** The feed does no deduplication: the same notification delivered twice is listed twice. */
  method ReceiveTwice(feed: Feed, n: Notification)
    requires feed.Valid() && feed.handler.Some?
    modifies feed
    ensures feed.Valid()
    ensures feed.notifications == [n, n] + old(feed.notifications)
  {
    feed.Receive(n);
    feed.Receive(n);
  }

  /** After cleanup nothing delivered reaches the list any more. */
  method ReceiveAfterCleanup(feed: Feed, n: Notification)
    requires feed.Valid()
    modifies feed, feed.socket
    ensures feed.Valid() && feed.handler.None?
    ensures feed.notifications == old(feed.notifications)
  {
    feed.Cleanup();
    feed.Receive(n);
  }
}

=== FILE: notifications.dfy ===
/**
 * The notifications page: the list it shows is the push feed followed by the
 * fetched history, filtered so that an entry survives only if it is the first
 * entry carrying its key `id ?? _id`.
 */
module NotificationMerge {
  import opened Browser
  import opened JsCore

  /** A notification as either source delivers it; `mongoId` is the `_id` field. */
  datatype Notification = Notification(
    id: Option<string>,
    mongoId: Option<string>,
    message: Option<string>,
    text: Option<string>,
    read: bool,
    createdAt: Option<string>)

  /** `n.id ?? n._id`; entries lacking both share the key `None` (undefined). */
  function Key(n: Notification): Option<string>
  {
    if n.id.Some? then n.id else n.mongoId
  }

  /** `s.findIndex(x => key(x) === k)`: the first index carrying key `k`, or -1. */
  function FindIndex(s: seq<Notification>, k: Option<string>): (r: int)
    ensures -1 <= r < |s|
    ensures r >= 0 ==> Key(s[r]) == k && forall m :: 0 <= m < r ==> Key(s[m]) != k
    ensures r == -1 ==> forall m :: 0 <= m < |s| ==> Key(s[m]) != k
    decreases |s|
  {
    if s == [] then -1
    else if Key(s[0]) == k then 0
    else
      var j := FindIndex(s[1..], k);
      if j < 0 then -1 else j + 1
  }

  /** The filter callback run over indices `i..` of `s`: keep `s[j]` iff `j` is the first index of its key. */
  function FilterFrom(s: seq<Notification>, i: nat): seq<Notification>
    requires i <= |s|
    decreases |s| - i
  {
    if i == |s| then []
    else if FindIndex(s, Key(s[i])) == i then [s[i]] + FilterFrom(s, i + 1)
    else FilterFrom(s, i + 1)
  }

  /** `s.filter((n, i, self) => i === self.findIndex(x => key(x) === key(n)))`. */
  function Dedup(s: seq<Notification>): seq<Notification>
  {
    FilterFrom(s, 0)
  }

  /** `[...notifications, ...stored].filter(...)`: the list the page renders. */
  function Merge(push: seq<Notification>, stored: seq<Notification>): seq<Notification>
  {
    Dedup(push + stored)
  }

  // ---------------------------------------------------------------------
  // An independent reference: a left-to-right scan remembering seen keys
  // ---------------------------------------------------------------------

  function KeysOf(s: seq<Notification>): set<Option<string>>
  {
    set i | 0 <= i < |s| :: Key(s[i])
  }

  function KeepFirstRef(s: seq<Notification>, seen: set<Option<string>>): seq<Notification>
    decreases |s|
  {
    if s == [] then []
    else if Key(s[0]) in seen then KeepFirstRef(s[1..], seen)
    else [s[0]] + KeepFirstRef(s[1..], seen + {Key(s[0])})
  }

  predicate UniqueKeys(s: seq<Notification>)
  {
    forall i, j :: 0 <= i < j < |s| ==> Key(s[i]) != Key(s[j])
  }

  lemma KeysOfPrefix(s: seq<Notification>, i: nat)
    requires i < |s|
    ensures KeysOf(s[..i + 1]) == KeysOf(s[..i]) + {Key(s[i])}
  {
    var a, b := s[..i + 1], s[..i];
    forall k | k in KeysOf(a) ensures k in KeysOf(b) + {Key(s[i])} {
      var m :| 0 <= m < |a| && Key(a[m]) == k;
      if m < i { assert Key(b[m]) == k; }
    }
    forall k | k in KeysOf(b) ensures k in KeysOf(a) {
      var m :| 0 <= m < |b| && Key(b[m]) == k;
      assert Key(a[m]) == k;
    }
    assert Key(a[i]) == Key(s[i]);
  }

  /** The filter-with-findIndex over indices `i..` is the reference scan started with the keys of `s[..i]`. */
  lemma {:induction false} FilterFromIsScan(s: seq<Notification>, i: nat)
    requires i <= |s|
    ensures FilterFrom(s, i) == KeepFirstRef(s[i..], KeysOf(s[..i]))
    decreases |s| - i
  {
    if i < |s| {
      FilterFromIsScan(s, i + 1);
      KeysOfPrefix(s, i);
      var k := Key(s[i]);
      assert s[i..][1..] == s[i + 1..];
      var f := FindIndex(s, k);
      if k in KeysOf(s[..i]) {
        var m :| 0 <= m < i && Key(s[..i][m]) == k;
        assert f <= m < i;
        assert KeysOf(s[..i + 1]) == KeysOf(s[..i]);
      } else {
        assert forall m :: 0 <= m < i ==> Key(s[m]) != k by {
          forall m | 0 <= m < i ensures Key(s[m]) != k {
            assert Key(s[..i][m]) == Key(s[m]);
          }
        }
        assert f == i;
      }
    }
  }

  /** The page's merge computes the same list as the reference scan. */
  lemma MergeIsScan(push: seq<Notification>, stored: seq<Notification>)
    ensures Merge(push, stored) == KeepFirstRef(push + stored, {})
  {
    var s := push + stored;
    FilterFromIsScan(s, 0);
    assert s[0..] == s;
    assert KeysOf(s[..0]) == {};
  }

  // ---------------------------------------------------------------------
  // Properties of the reference scan
  // ---------------------------------------------------------------------

  lemma KeysOfCons(x: Notification, t: seq<Notification>)
    ensures KeysOf([x] + t) == {Key(x)} + KeysOf(t)
  {
    var r := [x] + t;
    forall y | y in KeysOf(r) ensures y in {Key(x)} + KeysOf(t) {
      var m :| 0 <= m < |r| && Key(r[m]) == y;
      if m > 0 { assert Key(t[m - 1]) == y; }
    }
    forall y | y in KeysOf(t) ensures y in KeysOf(r) {
      var m :| 0 <= m < |t| && Key(t[m]) == y;
      assert Key(r[m + 1]) == y;
    }
    assert Key(r[0]) == Key(x);
  }

  lemma UniqueCons(x: Notification, t: seq<Notification>)
    requires UniqueKeys(t) && Key(x) !in KeysOf(t)
    ensures UniqueKeys([x] + t)
  {
    var r := [x] + t;
    forall i, j | 0 <= i < j < |r| ensures Key(r[i]) != Key(r[j]) {
      if i == 0 {
        assert Key(t[j - 1]) == Key(r[j]);
      } else {
        assert Key(r[i]) == Key(t[i - 1]) && Key(r[j]) == Key(t[j - 1]);
      }
    }
  }

  lemma {:induction false} ScanKeys(s: seq<Notification>, seen: set<Option<string>>)
    ensures KeysOf(KeepFirstRef(s, seen)) == KeysOf(s) - seen
    ensures UniqueKeys(KeepFirstRef(s, seen))
    decreases |s|
  {
    if s != [] {
      var k := Key(s[0]);
      assert s == [s[0]] + s[1..];
      KeysOfCons(s[0], s[1..]);
      if k in seen {
        ScanKeys(s[1..], seen);
      } else {
        var rest := KeepFirstRef(s[1..], seen + {k});
        ScanKeys(s[1..], seen + {k});
        KeysOfCons(s[0], rest);
        UniqueCons(s[0], rest);
      }
    }
  }

  lemma {:induction false} ScanIsSubsequence(s: seq<Notification>, seen: set<Option<string>>)
    ensures IsSubsequence(KeepFirstRef(s, seen), s)
    decreases |s|
  {
    if s != [] {
      var k := Key(s[0]);
      if k in seen {
        ScanIsSubsequence(s[1..], seen);
        var r := KeepFirstRef(s[1..], seen);
        if r != [] {
          assert IsSubsequence(r, s[1..]);
        }
      } else {
        ScanIsSubsequence(s[1..], seen + {k});
        var r := [s[0]] + KeepFirstRef(s[1..], seen + {k});
        assert r[1..] == KeepFirstRef(s[1..], seen + {k});
      }
    }
  }

  /** Every entry the scan keeps is the first entry of `s` carrying its key. */
  lemma {:induction false} ScanKeepsFirst(s: seq<Notification>, seen: set<Option<string>>)
    ensures forall i :: 0 <= i < |KeepFirstRef(s, seen)| ==>
      var f := FindIndex(s, Key(KeepFirstRef(s, seen)[i])); 0 <= f && s[f] == KeepFirstRef(s, seen)[i]
    decreases |s|
  {
    if s != [] {
      var k := Key(s[0]);
      var seen' := if k in seen then seen else seen + {k};
      ScanKeepsFirst(s[1..], seen');
      var rest := KeepFirstRef(s[1..], seen');
      var r := KeepFirstRef(s, seen);
      ScanKeys(s[1..], seen');
      forall i | 0 <= i < |r|
        ensures var f := FindIndex(s, Key(r[i])); 0 <= f && s[f] == r[i]
      {
        if k in seen {
          assert r[i] == rest[i];
          var x := Key(rest[i]);
          assert x in KeysOf(rest) && x != k;
        } else if i > 0 {
          assert r[i] == rest[i - 1];
          var x := Key(rest[i - 1]);
          assert x in KeysOf(rest);
          assert x != k;
        }
      }
    }
  }

  /** On input whose keys are unique and unseen, the scan keeps everything. */
  lemma {:induction false} ScanOfUnique(s: seq<Notification>, seen: set<Option<string>>)
    requires UniqueKeys(s)
    requires KeysOf(s) !! seen
    ensures KeepFirstRef(s, seen) == s
    decreases |s|
  {
    if s != [] {
      var k := Key(s[0]);
      assert k in KeysOf(s);
      assert UniqueKeys(s[1..]) by {
        forall i, j | 0 <= i < j < |s[1..]| ensures Key(s[1..][i]) != Key(s[1..][j]) {
          assert Key(s[i + 1]) != Key(s[j + 1]);
        }
      }
      assert KeysOf(s[1..]) !! seen + {k} by {
        forall x | x in KeysOf(s[1..]) ensures x !in seen + {k} {
          var m :| 0 <= m < |s[1..]| && Key(s[1..][m]) == x;
          assert Key(s[m + 1]) == x;
          assert x in KeysOf(s);
          assert Key(s[0]) != Key(s[m + 1]);
        }
      }
      ScanOfUnique(s[1..], seen + {k});
    }
  }

  // ---------------------------------------------------------------------
  // What the page's merge guarantees
  // ---------------------------------------------------------------------

  /** No two shown entries share a key. */
  lemma MergeUniqueKeys(push: seq<Notification>, stored: seq<Notification>)
    ensures UniqueKeys(Merge(push, stored))
  {
    MergeIsScan(push, stored);
    ScanKeys(push + stored, {});
  }

  /** The shown list is the concatenation with entries dropped, order kept. */
  lemma MergeIsSubsequence(push: seq<Notification>, stored: seq<Notification>)
    ensures IsSubsequence(Merge(push, stored), push + stored)
  {
    MergeIsScan(push, stored);
    ScanIsSubsequence(push + stored, {});
  }

  /** Every key found in either source is shown, and no other key is. */
  lemma MergeCoversKeys(push: seq<Notification>, stored: seq<Notification>)
    ensures KeysOf(Merge(push, stored)) == KeysOf(push) + KeysOf(stored)
  {
    var s := push + stored;
    MergeIsScan(push, stored);
    ScanKeys(s, {});
    forall x | x in KeysOf(s) ensures x in KeysOf(push) + KeysOf(stored) {
      var m :| 0 <= m < |s| && Key(s[m]) == x;
      if m < |push| { assert Key(push[m]) == x; } else { assert Key(stored[m - |push|]) == x; }
    }
    forall x | x in KeysOf(push) + KeysOf(stored) ensures x in KeysOf(s) {
      if x in KeysOf(push) {
        var m :| 0 <= m < |push| && Key(push[m]) == x;
        assert Key(s[m]) == x;
      } else {
        var m :| 0 <= m < |stored| && Key(stored[m]) == x;
        assert Key(s[|push| + m]) == x;
      }
    }
  }

  /** Each shown entry is the first entry of `push ++ stored` carrying its key. */
  lemma MergeKeepsFirst(push: seq<Notification>, stored: seq<Notification>)
    ensures forall i :: 0 <= i < |Merge(push, stored)| ==>
      var f := FindIndex(push + stored, Key(Merge(push, stored)[i]));
      0 <= f && (push + stored)[f] == Merge(push, stored)[i]
  {
    MergeIsScan(push, stored);
    ScanKeepsFirst(push + stored, {});
  }

  /**
   * When a pushed entry and a fetched one share a key, the shown entry with that
   * key is the first pushed one, so its `read` flag is the one displayed.
   */
  lemma PushCopyWins(push: seq<Notification>, stored: seq<Notification>, p: nat, q: nat)
    requires p < |push| && q < |stored| && Key(push[p]) == Key(stored[q])
    ensures exists i :: 0 <= i < |Merge(push, stored)| && Key(Merge(push, stored)[i]) == Key(push[p])
    ensures forall i :: 0 <= i < |Merge(push, stored)| && Key(Merge(push, stored)[i]) == Key(push[p]) ==>
      var f := FindIndex(push, Key(push[p]));
      0 <= f && Merge(push, stored)[i] == push[f] && Merge(push, stored)[i].read == push[f].read
  {
    var r, s, k := Merge(push, stored), push + stored, Key(push[p]);
    MergeCoversKeys(push, stored);
    MergeKeepsFirst(push, stored);
    assert k in KeysOf(push);
    assert k in KeysOf(r);
    var fp := FindIndex(push, k);
    var fs := FindIndex(s, k);
    assert Key(s[p]) == k;
    assert 0 <= fs <= p;
    assert forall m :: 0 <= m < fs ==> Key(push[m]) != k by {
      forall m | 0 <= m < fs ensures Key(push[m]) != k { assert s[m] == push[m]; }
    }
    assert fp == fs;
  }

  /** Entries lacking both ids share one key: exactly one of them is shown, the first. */
  lemma KeylessCollapse(push: seq<Notification>, stored: seq<Notification>)
    requires exists m :: 0 <= m < |push + stored| && Key((push + stored)[m]) == None
    ensures exists i :: 0 <= i < |Merge(push, stored)| && Key(Merge(push, stored)[i]) == None
    ensures forall i, j ::
      (0 <= i < |Merge(push, stored)| && 0 <= j < |Merge(push, stored)|
       && Key(Merge(push, stored)[i]) == None && Key(Merge(push, stored)[j]) == None) ==> i == j
    ensures forall i :: 0 <= i < |Merge(push, stored)| && Key(Merge(push, stored)[i]) == None ==>
      Merge(push, stored)[i] == (push + stored)[FindIndex(push + stored, None)]
  {
    var s := push + stored;
    var m :| 0 <= m < |s| && Key(s[m]) == None;
    MergeUniqueKeys(push, stored);
    MergeCoversKeys(push, stored);
    MergeKeepsFirst(push, stored);
    assert None in KeysOf(s);
    assert None in KeysOf(push) + KeysOf(stored) by {
      if m < |push| { assert Key(push[m]) == None; } else { assert Key(stored[m - |push|]) == None; }
    }
  }

  /** Filtering the shown list again changes nothing. */
  lemma DedupIdempotent(s: seq<Notification>)
    ensures Dedup(Dedup(s)) == Dedup(s)
  {
    MergeIsScan(s, []);
    assert s + [] == s;
    var r := Dedup(s);
    ScanKeys(s, {});
    MergeIsScan(r, []);
    assert r + [] == r;
    ScanOfUnique(r, {});
  }

  // ---------------------------------------------------------------------
  // The rest of the page
  // ---------------------------------------------------------------------

  /** `setStored(list || [])`: a missing fetch result becomes the empty history. */
  function StoredOrEmpty(list: Option<seq<Notification>>): (r: seq<Notification>)
    ensures list.None? ==> r == []
    ensures list.Some? ==> r == list.value
  {
    match list
    case None => []
    case Some(l) => l
  }

  const FallbackText := "Notificação recebida"

  /** `n.message ?? n.text ?? "Notificação recebida"`: an empty message is still shown as is. */
  function DisplayText(n: Notification): (r: string)
    ensures n.message.Some? ==> r == n.message.value
    ensures n.message.None? && n.text.Some? ==> r == n.text.value
    ensures n.message.None? && n.text.None? ==> r == FallbackText
  {
    match n.message
    case Some(m) => m
    case None =>
      match n.text
      case Some(t) => t
      case None => FallbackText
  }
}

=== FILE: profile.dfy ===
/**
 * The profile page: loads the current user behind a token gate, logs out,
 * and edits name and email locally (the edit is written to storage only).
 */
module Profile {
  import opened Browser

  /** What `api.auth.me` resolves to: the nested `user` field, and the object itself read as a user. */
  datatype MeData = MeData(nested: Option<UserRecord>, itself: UserRecord)

  /** `data?.user ?? data`; a null response gives no user. */
  function FetchedUser(data: Option<MeData>): (u: Option<UserRecord>)
    ensures data.None? ==> u.None?
    ensures data.Some? && data.value.nested.Some? ==> u == data.value.nested
    ensures data.Some? && data.value.nested.None? ==> u == Some(data.value.itself)
  {
    match data
    case None => None
    case Some(d) => if d.nested.Some? then d.nested else Some(d.itself)
  }

  /** `{ ...user, name, email }`. */
  function Edited(u: UserRecord, name: string, email: string): (r: UserRecord)
    ensures r.name == Some(name) && r.email == Some(email)
    ensures r.id == u.id && r.role == u.role && r.createdAt == u.createdAt
  {
    u.(name := Some(name), email := Some(email))
  }

  /** Editing twice is editing once with the later values. */
  lemma EditedTwice(u: UserRecord, n1: string, e1: string, n2: string, e2: string)
    ensures Edited(Edited(u, n1, e1), n2, e2) == Edited(u, n2, e2)
  {
  }

  const LoginPath := "/auth/login"
  const FetchFallback := "Could not fetch user"
  const NotAuthenticated := "Not authenticated"
  const SavedLocally := "Profile updated locally. Implement a backend PATCH /users/:id to persist changes."

  class ProfilePage {
    var user: Option<UserRecord>
    var loading: bool
    var error: Option<string>
    var editOpen: bool
    var editName: string
    var editEmail: string
    var saving: bool

    constructor ()
      ensures user.None? && loading && error.None? && !editOpen && editName == "" && editEmail == "" && !saving
    {
      user := None;
      loading := true;
      error := None;
      editOpen := false;
      editName := "";
      editEmail := "";
      saving := false;
    }

    /**
     * `fetchMe` with the `me` call settling as `me`. Without a token it goes
     * to login and calls nothing; a failure sets the error, clears the session
     * and goes to login. Loading ends on every path.
     */
    method FetchMe(w: Window, me: Outcome<Option<MeData>>)
      modifies this, w
      ensures !loading
      ensures editOpen == old(editOpen) && editName == old(editName) && editEmail == old(editEmail)
      ensures saving == old(saving)
      ensures !Truthy(GetItem(old(w.storage), TokenKey)) ==>
        w.trace == old(w.trace) + [RouterPush(LoginPath)] && w.storage == old(w.storage)
        && user == old(user) && error == old(error)
      ensures Truthy(GetItem(old(w.storage), TokenKey)) && me.Resolved? ==>
        w.trace == old(w.trace) + [Request(Get, "/auth/me")] && w.storage == old(w.storage)
        && user == FetchedUser(me.value) && error == old(error)
      ensures Truthy(GetItem(old(w.storage), TokenKey)) && me.Rejected? ==>
        w.trace == old(w.trace) + [Request(Get, "/auth/me"), RouterPush(LoginPath)]
        && w.storage == ClearSession(old(w.storage))
        && user == old(user) && error == Some(MessageOr(me.message, FetchFallback))
    {
      loading := true;
      var token := GetItem(w.storage, TokenKey);
      if !Truthy(token) {
        w.Emit(RouterPush(LoginPath));
        loading := false;
        return;
      }
      w.Emit(Request(Get, "/auth/me"));
      match me {
        case Resolved(data) =>
          user := FetchedUser(data);
        case Rejected(m) =>
          error := Some(MessageOr(m, FetchFallback));
          w.EndSession();
          w.Emit(RouterPush(LoginPath));
      }
      loading := false;
    }

    /** `handleLogout`: both session keys removed, then to login. Page state is left as is. */
    method HandleLogout(w: Window)
      modifies w
      ensures w.storage == ClearSession(old(w.storage))
      ensures w.trace == old(w.trace) + [RouterPush(LoginPath)]
    {
      w.EndSession();
      w.Emit(RouterPush(LoginPath));
    }

    /** `openEdit`: the form starts from the current name and email, or empty text. */
    method OpenEdit()
      modifies this
      ensures editOpen
      ensures editName == (if user.Some? && user.value.name.Some? then user.value.name.value else "")
      ensures editEmail == (if user.Some? && user.value.email.Some? then user.value.email.value else "")
      ensures user == old(user) && loading == old(loading) && error == old(error) && saving == old(saving)
    {
      editName := if user.Some? && user.value.name.Some? then user.value.name.value else "";
      editEmail := if user.Some? && user.value.email.Some? then user.value.email.value else "";
      editOpen := true;
    }

    /**
     * `saveEdit`. With no user it does nothing at all. Without a token it
     * alerts "Not authenticated" and changes neither the user nor storage.
     * Otherwise the user gets the edited name and email, the stored `user`
     * is rewritten, the dialog closes and a notice is shown.
     */
    method SaveEdit(w: Window, stringify: UserRecord -> string)
      modifies this, w
      ensures old(user).None? ==>
        user == old(user) && saving == old(saving) && editOpen == old(editOpen)
        && w.storage == old(w.storage) && w.trace == old(w.trace)
      ensures old(user).Some? ==> !saving
      ensures old(user).Some? && !Truthy(GetItem(old(w.storage), TokenKey)) ==>
        user == old(user) && editOpen == old(editOpen)
        && w.storage == old(w.storage) && w.trace == old(w.trace) + [Alert(NotAuthenticated)]
      ensures old(user).Some? && Truthy(GetItem(old(w.storage), TokenKey)) ==>
        user == Some(Edited(old(user).value, editName, editEmail)) && !editOpen
        && w.storage == old(w.storage)[UserKey := stringify(user.value)]
        && w.trace == old(w.trace) + [Alert(SavedLocally)]
      ensures editName == old(editName) && editEmail == old(editEmail)
      ensures loading == old(loading) && error == old(error)
    {
      if user.None? {
        return;
      }
      saving := true;
      var token := GetItem(w.storage, TokenKey);
      if !Truthy(token) {
        w.Emit(Alert(NotAuthenticated));
        saving := false;
        return;
      }
      var updated := Edited(user.value, editName, editEmail);
      user := Some(updated);
      w.SetItem(UserKey, stringify(updated));
      editOpen := false;
      w.Emit(Alert(SavedLocally));
      saving := false;
    }
  }

  /** Opening the editor and saving unchanged values with a token keeps every field of the user. */
  method SaveWithoutChanges(page: ProfilePage, w: Window, stringify: UserRecord -> string)
    requires page.user.Some? && page.user.value.name.Some? && page.user.value.email.Some?
    requires Truthy(GetItem(w.storage, TokenKey))
    modifies page, w
    ensures page.user == old(page.user)
  {
    page.OpenEdit();
    page.SaveEdit(w, stringify);
  }
}

=== FILE: toast.dfy ===
/**
 * The toast provider: `toast` prepends an entry whose id is the current
 * millisecond and schedules its removal; each removal timer filters out
 * every entry carrying its id.
 */
module Toasts {
  import opened JsCore
  import opened Browser

  datatype Variant = Default | Destructive | Success

  datatype ToastEntry = ToastEntry(id: string, title: Option<string>, description: Option<string>, variant: Variant)

  /** `prev.filter(x => x.id !== id)`. */
  function Remove(toasts: seq<ToastEntry>, id: string): (r: seq<ToastEntry>)
    ensures forall i :: 0 <= i < |r| ==> r[i].id != id
    ensures forall e :: e in r <==> e in toasts && e.id != id
    ensures forall e: ToastEntry :: e.id != id ==> multiset(r)[e] == multiset(toasts)[e]
  {
    var r := Filter(toasts, (x: ToastEntry) => x.id != id);
    assert forall e :: e in r <==> multiset(r)[e] > 0;
    r
  }

  /** Removal keeps the surviving entries in their order. */
  lemma RemoveKeepsOrder(toasts: seq<ToastEntry>, id: string)
    ensures IsSubsequence(Remove(toasts, id), toasts)
  {
    FilterIsSubsequence(toasts, (x: ToastEntry) => x.id != id);
  }

  /** Removing an id no entry carries changes nothing. */
  lemma RemoveAbsent(toasts: seq<ToastEntry>, id: string)
    requires forall i :: 0 <= i < |toasts| ==> toasts[i].id != id
    ensures Remove(toasts, id) == toasts
  {
    FilterAllPass(toasts, (x: ToastEntry) => x.id != id);
  }

  class ToastProvider {
    /** The `toasts` state, newest first. */
    var toasts: seq<ToastEntry>
    /** The ids captured by the removal timers still to fire, in scheduling order. */
    var pending: seq<string>

    constructor ()
      ensures toasts == [] && pending == []
    {
      toasts := [];
      pending := [];
    }

    /** `toast(t)` at instant `now`: one new entry in front, a missing variant read as "default". */
    method Toast(title: Option<string>, description: Option<string>, variant: Option<Variant>, now: int)
      modifies this
      ensures toasts == [ToastEntry(IntToString(now), title, description,
                                    if variant.Some? then variant.value else Default)] + old(toasts)
      ensures pending == old(pending) + [IntToString(now)]
    {
      var id := IntToString(now);
      var entry := ToastEntry(id, title, description, if variant.Some? then variant.value else Default);
      toasts := [entry] + toasts;
      pending := pending + [id];
    }

    /** The `i`-th scheduled timer fires. */
    method Expire(i: nat)
      requires i < |pending|
      modifies this
      ensures toasts == Remove(old(toasts), old(pending)[i])
      ensures pending == old(pending)[..i] + old(pending)[i + 1..]
    {
      toasts := Remove(toasts, pending[i]);
      pending := pending[..i] + pending[i + 1..];
    }
  }

  /** Two toasts in the same millisecond share an id: the first timer to fire removes both. */
  method SameInstantToasts(p: ToastProvider, now: int, first: ToastEntry, second: ToastEntry)
    modifies p
    ensures forall e :: e in p.toasts <==> e in old(p.toasts) && e.id != IntToString(now)
  {
    p.Toast(first.title, first.description, Some(first.variant), now);
    p.Toast(second.title, second.description, Some(second.variant), now);
    p.Expire(|p.pending| - 2);
  }

  /** The style a variant renders with. */
  datatype Palette = Red | Green | Neutral

  function PaletteOf(v: Variant): (p: Palette)
    ensures p == Red <==> v == Destructive
    ensures p == Green <==> v == Success
    ensures p == Neutral <==> v == Default
  {
    match v
    case Destructive => Red
    case Success => Green
    case Default => Neutral
  }

  const OutsideProvider := "useToast must be used within a ToastProvider"

  /** `useToast()`: the nearest provider's context, or a thrown error when there is none. */
  function UseToast(context: Option<ToastProvider>): (r: Outcome<ToastProvider>)
    ensures r.Rejected? <==> context.None?
    ensures r.Rejected? ==> r.message == OutsideProvider
    ensures r.Resolved? ==> r.value == context.value
  {
    match context
    case None => Rejected(OutsideProvider)
    case Some(p) => Resolved(p)
  }
}
